=== FILE: README.md ===
# CS550-gnutella: a Dafny model of the peer core

This project models the sequential logic at the heart of the Gnutella-style
file-sharing peer in `japster2`:

- **The replica-metadata record `FileLocation`** (`file_location.dfy`).
  It holds a file's address, name, size, version, `valid` flag, time-to-refresh
  (TTR), `expired` latch and timestamp. Its transitions are `setTtr`,
  `tickTtr`, `touch` and `invalidate`. Identity is the pair (address, file
  name).
- **The flooding query protocol of one `Peer`** (`peer.dfy`). `search`,
  `query`, `hitquery`, `hello` and `sayHello` are each one atomic
  transition. Each takes the peer record and returns the new record plus the
  remote calls it makes. The record holds:
  - the neighbour directory;
  - the ledger of seen message ids (`seenMessages`: id to upstream, with a
    `Self` entry for queries originated here);
  - the search-result list (`fileLocations` in the source);
  - the message-id counter.
- **The experiment harness's measurements** (`peer_tester.dfy`):
  - the scoring fold of `testInvalidQueries`, which sorts the results by
    timestamp and counts those whose version is below the highest seen so
    far for their file;
  - the memoised `getFileNames`;
  - `updateFiles`.

`basics.dfy` defines Java's `int` and `long` as bounded subset types with
explicit two's-complement wrap-around. It also defines Java's decimal rendering
of integers in string concatenation, with a parser as its proved inverse. The
protocol constants (`TTL = 10`, `DEFAULT_TTR = 30`) are in module `Const`.

Modelling choices:

- Remote stubs are `NodeId`s. Stub `equals` is id equality.
- A registry lookup is a map `Registry` from address to stub. An address
  missing from the map is a lookup that throws.
- The shared directory is a map `Disk` from file name to length.
  Along a sequence of inbound calls, each call carries the registry and
  the directory as they stand when it arrives, so both may change.
- Clock readings (`System.currentTimeMillis()`) are parameters.
- The TTR tick unit is a parameter. The source computes it as
  `Const.UPDATE_TTR_PERIOD/1000`, and that constant is not defined in
  `Const.java`.

Behaviour reproduced as the code has it:

- **`query` forwards the TTL it received, not `ttl - 1`** (Peer.java:384).
  Only the ledger stops a flood, so no TTL-boundedness property is stated.
- **`hitquery` forwards `ttl - 1`** (Peer.java:438). Both decrements are on
  a Java `long`, so a `ttl` of `Long.MIN_VALUE` wraps to `Long.MAX_VALUE`
  and the message is forwarded (`Peers.ForwardingThreshold`).
- **`search` has no exception handler around its fan-out.** The first
  neighbour whose call throws ends the loop and the exception reaches the
  caller. The counter increment and the `Self` ledger entry have already
  happened by then. `Search` takes the set `down` of stubs whose call throws.
- **`query` catches per neighbour**, so every neighbour other than the
  sender is called.
- **`sayHello` records the neighbour only when the remote `hello` returns
  true.** If that call throws, the exception reaches the caller (`result ==
  None`) and nothing is recorded.
- **`msgIdSeq++` and `version++` wrap as Java `int`s**, and so does
  `ttr -= tick`.

Details of the code that the model keeps:

- The message id is `localAddress:localPort_msgIdSeq` (Peer.java:230).
- Hits for queries this peer originated are collected in `fileLocations`.
  A hit is added only when no `equals` location is already there
  (Peer.java:430-434).
- A hit for a query is built from the file found on the shared disk, with
  the three-argument `FileLocation` constructor (Peer.java:396-399). That
  constructor is not in `FileLocation.java`. The model assumes it gives the
  initial version 1 and the default TTR (`FileLocations.NewDefault`).

## Model

| member | source | states |
|---|---|---|
| Basics.IntDecimalRoundTrip | CS550-gnutella/src/japster2/peer/Peer.java:230 | Java's decimal rendering of an integer (used in message ids and file names) is inverted by the decimal parser, so it is injective |
| Peers.MsgIdInjective | CS550-gnutella/src/japster2/peer/Peer.java:230 | two ids `addr:port_seq` of one peer built from different counter values are different strings |
| FileLocations.New | CS550-gnutella/src/japster2/peer/FileLocation.java:50-60 | a freshly constructed location is valid, not expired, and carries exactly the given address, name, size, version, TTR and clock reading |
| FileLocations.NewDefault | CS550-gnutella/src/japster2/peer/Peer.java:396-399 | the location a peer builds for a hit is valid and fresh, points at the given address and file, starts at version 1 with the default TTR, and is stamped with the given clock reading |
| FileLocations.SetTtr | CS550-gnutella/src/japster2/peer/FileLocation.java:66-69 | `setTtr(v)` sets the TTR to `v` and clears `expired`; version, validity, identity, size and timestamp are untouched |
| FileLocations.SetTtrRestartsExpiry | CS550-gnutella/src/japster2/peer/FileLocation.java:66-89 | after `setTtr(v)` with `v > 0` and a positive tick, the location stays unexpired for exactly `ceil(v / tick)` ticks and is expired after them |
| FileLocations.TickTtr | CS550-gnutella/src/japster2/peer/FileLocation.java:77-89 | ticking an expired location changes nothing; otherwise the TTR drops by the tick (wrapping as an `int`), `expired` is set iff the new TTR is at most 0, and nothing else changes |
| FileLocations.TickFromPositive | CS550-gnutella/src/japster2/peer/FileLocation.java:83-88 | from a positive TTR a tick subtracts exactly the tick unit with no wrap-around, and expires the location iff the TTR was at most one tick |
| FileLocations.TicksFromPositive | CS550-gnutella/src/japster2/peer/FileLocation.java:77-89 | from a positive TTR, the number of ticks until expiry is exactly `ceil(ttr / tick)` |
| FileLocations.TickingExpires | CS550-gnutella/src/japster2/peer/FileLocation.java:77-89 | with a positive tick unit, repeated ticking always ends in `expired`, and no earlier tick count does |
| FileLocations.ExpiredIsFixed | CS550-gnutella/src/japster2/peer/FileLocation.java:78-80 | once expired, any number of further ticks leaves the location, TTR included, unchanged |
| FileLocations.Touch | CS550-gnutella/src/japster2/peer/FileLocation.java:110-113 | `touch` increments the version as a Java `int` (by exactly one below `Integer.MAX_VALUE`), restamps the time, and keeps address, name, size, TTR, `valid` and `expired` |
| FileLocations.TouchBumpsVersion | CS550-gnutella/src/japster2/peer/FileLocation.java:110-113 | below the `int` limit, `touch` yields the same record with version plus one and the new timestamp, and nothing else changed |
| FileLocations.Invalidate | CS550-gnutella/src/japster2/peer/FileLocation.java:115-117 | `invalidate` clears `valid` and keeps every other field |
| FileLocations.InvalidateIdempotent | CS550-gnutella/src/japster2/peer/FileLocation.java:115-117 | invalidating twice is the same as invalidating once |
| FileLocations.InvalidIsSticky | CS550-gnutella/src/japster2/peer/FileLocation.java:66-121 | after any sequence of `setTtr`, `tickTtr`, `touch` and `invalidate`, an invalid location is still invalid and its identity is unchanged |
| FileLocations.EqualsIsEquivalence | CS550-gnutella/src/japster2/peer/FileLocation.java:155-160 | `equals` is reflexive, symmetric and transitive |
| FileLocations.EqualsIgnoresMetadata | CS550-gnutella/src/japster2/peer/FileLocation.java:155-160 | two locations with the same address and name are `equals` whatever their version, size, TTR, flags and timestamp |
| FileLocations.StatusSuffix | CS550-gnutella/src/japster2/peer/FileLocation.java:146-151 | `toString` marks an invalid location "(INVALID)" even if expired, a valid expired one "(TTR EXPIRED)", and adds nothing exactly when the location is valid and fresh |
| Peers.NewPeer | CS550-gnutella/src/japster2/peer/Peer.java:85-98 | a new peer has empty tables, counter 0, and satisfies the peer invariant |
| Peers.UniqueAddressesMeansDistinct | CS550-gnutella/src/japster2/peer/Peer.java:54 | the directory invariant holds iff no two entries share an address, as in a `Hashtable` keyed by address |
| Peers.Put | CS550-gnutella/src/japster2/peer/Peer.java:344 | `neighbors.put(a, n)` leaves `a` mapped to `n`, adds `a` to the address set, keeps every other entry and adds none, preserves one-entry-per-address, and grows the directory only for a new address |
| Peers.Forward | CS550-gnutella/src/japster2/peer/Peer.java:378-388 | the fan-out of `query` calls every neighbour whose stub is not the sender's, and no other, each with the id, received ttl, file name and this peer's host and port; each stub is called once per directory entry holding it, and the sender never |
| Peers.UntilFailure | CS550-gnutella/src/japster2/peer/Peer.java:232-234 | an unguarded fan-out makes a prefix of its calls; all of them when no stub throws, otherwise exactly up to the first throwing stub |
| Peers.BroadcastUntilFailure | CS550-gnutella/src/japster2/peer/Peer.java:232-234 | an unguarded broadcast sends queries with the given payload to the directory's stubs in order, no more calls than entries, and completes without an exception iff no entry's stub throws |
| Peers.Search | CS550-gnutella/src/japster2/peer/Peer.java:229-235 | `search` advances the counter and records the minted id as `Self`; it queries the neighbours in directory order with `Const.TTL`, the id, the name and this peer's address; it throws iff some neighbour is unreachable, after calling the neighbours up to that one; it preserves the invariant |
| Peers.Originate | CS550-gnutella/src/japster2/peer/Peer.java:230-231 | the state change of `search` advances the counter (wrapping as an `int`) and records the minted id as `Self`; neighbours, files and results are kept |
| Peers.SearchesMintIds | CS550-gnutella/src/japster2/peer/Peer.java:230 | a run of searches mints the ids of consecutive counter values, in order |
| Peers.MintedAt | CS550-gnutella/src/japster2/peer/Peer.java:230 | the `i`-th id of a run is minted from the counter advanced `i` times, with `int` wrap-around |
| Peers.IdsAtInjective | CS550-gnutella/src/japster2/peer/Peer.java:230 | for one address and port, the id rendering maps different counter values to different ids |
| Peers.MintedDistinct | CS550-gnutella/src/japster2/peer/Peer.java:229-231 | with an injective rendering, a run of at most 2^32 consecutive counter values mints pairwise different ids |
| Peers.SearchIdsDistinct | CS550-gnutella/src/japster2/peer/Peer.java:229-235 | any two searches of one peer in a run of at most 2^32 searches mint different ids |
| Peers.DeliverKeepsCounter | CS550-gnutella/src/japster2/peer/Peer.java:237-446 | `query`, `hitquery`, `hello` and `sayHello` leave the message-id counter and the peer's own address and port unchanged |
| Peers.DeliverAdvances | CS550-gnutella/src/japster2/peer/Peer.java:229-446 | every handler keeps the peer's own address and port, and moves the counter by one (wrapping as an `int`) iff it is `search` |
| Peers.AlongMintsIds | CS550-gnutella/src/japster2/peer/Peer.java:229-231 | along any steps that move the counter by one exactly on searches and keep the peer's address, the searches mint the ids of consecutive counter values, in order |
| Peers.RunMintsIds | CS550-gnutella/src/japster2/peer/Peer.java:229-446 | over any sequence of inbound calls, each with its own registry and shared directory, the searches among them mint the ids of consecutive counter values, in order |
| Peers.RunSearchIdsDistinct | CS550-gnutella/src/japster2/peer/Peer.java:229-446 | whatever other calls arrive in between, two searches of a run with at most 2^32 searches mint different ids |
| Peers.Query | CS550-gnutella/src/japster2/peer/Peer.java:353-414 | a duplicate id or an unresolvable sender changes nothing and calls no one. Otherwise it records id to sender, forwards only to neighbours other than the sender, each stub once per directory entry holding it, with the received ttl and only when `ttl - 1 > 0`, makes no other calls, and after the queries sends a hit to the sender iff the file is on disk. The hit carries `Const.TTL` and exactly the fresh location `NewDefault` builds for this peer, the file's name and length on disk, and the clock reading. The invariant is preserved |
| Peers.Reply | CS550-gnutella/src/japster2/peer/Peer.java:378-405 | on first sight of an id, the calls `query` makes are the fan-out to non-sender neighbours (once per directory entry, only when `ttl - 1 > 0`) followed by a hit with `Const.TTL` and the fresh location iff the file is on disk, and nothing else; every call before the last is a query, and the last is the hit when there is one |
| Peers.QueryFansOut | CS550-gnutella/src/japster2/peer/Peer.java:378-388 | on first sight of an id, each neighbour other than the sender is queried iff `ttl - 1 > 0`, with the received ttl |
| Peers.ForwardingThreshold | CS550-gnutella/src/japster2/peer/Peer.java:356-378 | the forwarding test on `long` is `ttl > 1`, except at `Long.MIN_VALUE`, where the decrement wraps and the query is forwarded |
| Peers.HitQuery | CS550-gnutella/src/japster2/peer/Peer.java:416-446 | an unknown id changes nothing. For an id originated here the location is added iff no `equals` one is present, and nothing is sent. Otherwise the hit goes only to the recorded upstream, with `ttl - 1` when that is positive, and the peer is unchanged |
| Peers.HitQueryFollowsLedger | CS550-gnutella/src/japster2/peer/Peer.java:429-442 | a hit forwarded by `hitquery` goes to the ledger's upstream with the same location and a positive, decremented ttl; the results are not touched |
| Peers.Hello | CS550-gnutella/src/japster2/peer/Peer.java:332-351 | `hello` accepts iff the caller's registry resolves; it then records the caller at its address, keeps every other entry and adds none at another address, and changes nothing else; on refusal nothing changes |
| Peers.SayHello | CS550-gnutella/src/japster2/peer/Peer.java:237-253 | `sayHello` calls `hello` on the resolved stub with this peer's address, and adds the neighbour iff the lookup succeeds and the remote returns true, keeping every other entry and adding none at another address. A `false` reply returns `false`, while a failed lookup or a throwing `hello` propagates the exception (`None`); in both cases nothing changes |
| Peers.RunPreservesInvariants | CS550-gnutella/src/japster2/peer/Peer.java:229-446 | over any sequence of inbound calls, each seeing its own registry and shared directory, the directory keeps one entry per address, the results never hold two `equals` locations, ledger ids are never forgotten, and the results only grow |
| Peers.LedgerFirstWriterWins | CS550-gnutella/src/japster2/peer/Peer.java:361-377 | `query`, `hitquery`, `hello` and `sayHello` never change an existing ledger entry |
| Peers.QueryHitsAtMostOne | CS550-gnutella/src/japster2/peer/Peer.java:361-405 | one `query` sends at most one hit, only for its own id, and none for an id already seen |
| Peers.QueryAnsweredAtMostOnce | CS550-gnutella/src/japster2/peer/Peer.java:361-405 | however many copies of an id arrive, the peer answers it at most once, and never if the id was already in the ledger |
| PeerTester.Insert | CS550-gnutella/src/japster2/tools/PeerTester.java:253-263 | inserting into a timestamp-sorted list keeps it sorted and one element longer, and the result holds exactly the elements of the list and the new one (occurrence counts are in `PeerTester.InsertPermutes`) |
| PeerTester.SortByTimestamp | CS550-gnutella/src/japster2/tools/PeerTester.java:253-263 | the results come out in ascending timestamp order, as many as went in, and holding exactly the input's elements (that each occurs as often as in the input is `PeerTester.SortIsPermutation`) |
| PeerTester.InsertPermutes | CS550-gnutella/src/japster2/tools/PeerTester.java:253-263 | one insertion step adds exactly one occurrence of the new element and loses nothing |
| PeerTester.SortIsPermutation | CS550-gnutella/src/japster2/tools/PeerTester.java:253-263 | the sorted list is a permutation of the results: every result occurs in it as often as in the input |
| PeerTester.InsertIsStable | CS550-gnutella/src/japster2/tools/PeerTester.java:253-263 | an insertion places the new element after every element with the same timestamp |
| PeerTester.SortIsStable | CS550-gnutella/src/japster2/tools/PeerTester.java:253-263 | for every timestamp, the results carrying it keep their original relative order (`List.sort` is stable, and ties affect the count) |
| PeerTester.ScoreTracksHighest | CS550-gnutella/src/japster2/tools/PeerTester.java:274-298 | after each step the map holds exactly the names seen so far, each with the maximum version among its results so far |
| PeerTester.StepCountsIffInconsistent | CS550-gnutella/src/japster2/tools/PeerTester.java:278-293 | a step adds one iff some earlier result for the same file has a higher version, which is the same as the version being below the stored maximum; the first result of a name is never counted |
| PeerTester.ScoreCountsInconsistent | CS550-gnutella/src/japster2/tools/PeerTester.java:270-299 | the loop's count equals the number of results that some earlier result for the same file outranks |
| PeerTester.HighestNonDecreasing | CS550-gnutella/src/japster2/tools/PeerTester.java:295-297 | the stored maximum of a name never decreases as the loop proceeds |
| PeerTester.CountAtMostLength | CS550-gnutella/src/japster2/tools/PeerTester.java:270-299 | the inconsistency count never exceeds the number of results |
| PeerTester.NonDecreasingScoresZero | CS550-gnutella/src/japster2/tools/PeerTester.java:265-299 | when no file's version ever goes down in timestamp order, the count is 0 |
| PeerTester.TestInvalidQueries | CS550-gnutella/src/japster2/tools/PeerTester.java:250-299 | the scoring sorts the results by timestamp, as a permutation that keeps the order of equal timestamps, and returns the number of inconsistent results, which is at most the number of results and 0 when versions never go down |
| PeerTester.GetFileNames | CS550-gnutella/src/japster2/tools/PeerTester.java:112-124 | the first call builds and stores exactly `numberOfFiles` names `peerName_file<i>`, in index order; a negative count throws; later calls return the stored list unchanged |
| PeerTester.GetFileNamesMemoised | CS550-gnutella/src/japster2/tools/PeerTester.java:114-115 | a second call returns the same list and leaves the tester unchanged |
| PeerTester.FileNamesDistinct | CS550-gnutella/src/japster2/tools/PeerTester.java:119-121 | the generated file names are pairwise distinct |
| PeerTester.UpdateFiles | CS550-gnutella/src/japster2/tools/PeerTester.java:306-314 | `updateFiles` touches every local file exactly once, in place, and changes nothing else in the peer |
| PeerTester.UpdateFilesBumpsEachOnce | CS550-gnutella/src/japster2/tools/PeerTester.java:306-314 | below the `int` limit each local file's version rises by exactly one, and its identity, size, TTR and flags are kept |

## Left out

- RMI: export, unexport, registry creation and stub marshalling (Peer.java:255-273). They are foreign library calls. Lookups are the `Registry` oracle.
- Threads: each `query` and `hitquery` runs on its own thread, and the `containsKey`-then-`put` on the ledger is not atomic (Peer.java:357-377). The model treats each handler as one atomic step, so the interleavings in which two threads both see an id as new are not modelled.
- Fan-out order: `Hashtable.values()` iterates in an unspecified order. The model uses directory order, which fixes which neighbours an unguarded `search` reaches before the first throw.
- `loadFiles`, `download`, `obtain`, and the file server and downloader threads: filesystem and socket I/O. The shared directory is the `Disk` map.
- The polling and TTR/expiry threads, and the peer methods they call: `sendPolls`, `Peer.tickTtr` and `checkExpired` (UpdateTtrThread.java:19 calls `tickTtr`). Also `sendInvalidate`, `endPullMode` and `shutdownPeerStub`, which PeerTester.java calls (lines 311, 182 and 184). PeerConsole.java calls only `sendInvalidate` (line 148). None of these five methods is in the Peer.java modelled here, so no push, pull or poll message exchange is modelled. The per-location `FileLocation.tickTtr` is modelled.
- `sendInvalidate` in `updateFiles` (PeerTester.java:310-312): the push-mode branch calls a method that is not part of this model. Only the `touch` of every file is modelled.
- Console output (`println`) in every handler, and `toString` apart from its status suffix. The rest of `toString` is only formatting.
- `PeerConsole`, the `main` and `createOptions` command line, and `InvalidQueryTest`: UI, argument parsing, and a multi-threaded experiment with sleeps.
- The query-issuing loop of `testInvalidQueries` (PeerTester.java:211-248), with its random choice and sleeps, and `createFiles`, `deleteFiles` and `cleanup`: I/O and timing. The scoring starts from the result list.
- PeerTester.TestInvalidQueries: the count is unbounded rather than a Java `int`. It never exceeds the length of the result list, which an `ArrayList` keeps below 2^31, so it cannot wrap.
- PeerTester.UpdateFiles: every file is stamped with the same clock reading `now`, whereas the source reads the clock once per file. Only the timestamps differ.
- PeerTester.UpdateFiles: models pull mode only. `updateFiles` declares `throws RemoteException` (PeerTester.java:306). In push mode, a `sendInvalidate` that throws ends the loop, and later files are not touched. The model always touches every file.
- FileLocations.NewDefault: everything it fixes beyond the address, name and length it is given is an assumption: version 1, `DEFAULT_TTR`, `valid = true`, `expired = false` and the timestamp `now`. The three-argument constructor it stands for (called at Peer.java:396-399) is not in `FileLocation.java`.
- Address equality is value equality of host string and port. `InetSocketAddress` resolution and host-name case folding are not modelled.
- Whole-network scenarios, such as several peers exchanging messages over a graph, are not modelled. Properties are stated for one peer facing any sequence of inbound calls.
- Peers.SearchIdsDistinct: only runs of at most 2^32 searches are covered. After that many the `int` counter comes back round and the source mints an id a second time.

=== FILE: basics.dfy ===
/**
 * Java's primitive integer widths and its decimal rendering of integers in
 * string concatenation, stated once for the rest of the model.
 */
module Basics {

  datatype Option<T> = None | Some(value: T)

  /** Java `int`. */
  type int32 = x: int | -0x8000_0000 <= x < 0x8000_0000

  /** Java `long`. */
  type int64 = x: int | -0x8000_0000_0000_0000 <= x < 0x8000_0000_0000_0000

  const Int32Max: int32 := 0x7fff_ffff
  const Int64Min: int64 := -0x8000_0000_0000_0000
  const Int64Max: int64 := 0x7fff_ffff_ffff_ffff

  /** Two's-complement wrap-around of an `int` computation. */
  function Wrap32(x: int): (r: int32)
    ensures -0x8000_0000 <= x < 0x8000_0000 ==> r == x
    ensures x == 0x8000_0000 ==> r == -0x8000_0000
  {
    (x + 0x8000_0000) % 0x1_0000_0000 - 0x8000_0000
  }

  /** Two's-complement wrap-around of a `long` computation. */
  function Wrap64(x: int): (r: int64)
    ensures Int64Min <= x <= Int64Max ==> r == x
    ensures x == Int64Min - 1 ==> r == Int64Max
  {
    (x + 0x8000_0000_0000_0000) % 0x1_0000_0000_0000_0000 - 0x8000_0000_0000_0000
  }

  /** `i + 1` on an `int` never wraps back to `i`, and two increments
      started from the same value land on distinct values until the
      counter has gone all the way round. */
  lemma Wrap32Distinct(s: int32, i: nat, j: nat)
    requires i < j < 0x1_0000_0000
    ensures Wrap32(s + i) != Wrap32(s + j)
  {
    var a := s + i + 0x8000_0000;
    var b := s + j + 0x8000_0000;
    assert 0 <= a < b;
    assert b - a < 0x1_0000_0000;
  }

  /** Wrapping is compatible with further addition: an `int` counter
      advanced `k` times from a wrapped value is where the unwrapped sum
      wraps to. */
  lemma Wrap32Shift(x: int, k: int)
    ensures Wrap32(Wrap32(x) + k) == Wrap32(x + k)
  {
    var m := 0x1_0000_0000;
    var a := x + 0x8000_0000;
    var q := a / m;
    assert Wrap32(x) == x - m * q;
    var b := x + k + 0x8000_0000;
    assert Wrap32(x) + k + 0x8000_0000 == b - m * q;
    assert (b - m * q) % m == b % m;
  }

  predicate IsDigit(c: char) {
    '0' <= c <= '9'
  }

  predicate AllDigits(s: string) {
    forall i :: 0 <= i < |s| ==> IsDigit(s[i])
  }

  function DigitChar(d: nat): (c: char)
    requires d < 10
    ensures IsDigit(c)
  {
    ('0' as int + d) as char
  }

  function DigitValue(c: char): (d: nat)
    requires IsDigit(c)
    ensures d < 10
    ensures DigitChar(d) == c
  {
    c as int - '0' as int
  }

  /** Decimal digits of `n`, most significant first, no leading zero. */
  function NatToDecimal(n: nat): (s: string)
    ensures |s| >= 1 && AllDigits(s)
    ensures |s| > 1 ==> s[0] != '0'
    decreases n
  {
    if n < 10 then [DigitChar(n)] else NatToDecimal(n / 10) + [DigitChar(n % 10)]
  }

  /** Reads a string of decimal digits back as a number. */
  function DecimalToNat(s: string): nat
    requires AllDigits(s)
  {
    if |s| == 0 then 0 else 10 * DecimalToNat(s[..|s| - 1]) + DigitValue(s[|s| - 1])
  }

  /** Java's rendering of an integer in string concatenation (`"" + i`). */
  function IntToDecimal(i: int): (s: string)
    ensures |s| >= 1
    ensures s[0] == '-' <==> i < 0
  {
    if i < 0 then "-" + NatToDecimal(-i) else NatToDecimal(i)
  }

  /** The inverse of `IntToDecimal`: an optional minus sign followed by digits. */
  function ParseDecimal(s: string): Option<int> {
    if |s| >= 2 && s[0] == '-' && AllDigits(s[1..]) then Some(0 - DecimalToNat(s[1..]))
    else if |s| >= 1 && AllDigits(s) then Some(DecimalToNat(s) as int)
    else None
  }

  lemma {:induction false} NatDecimalRoundTrip(n: nat)
    ensures DecimalToNat(NatToDecimal(n)) == n
  {
    if n >= 10 {
      var s := NatToDecimal(n);
      var prefix := NatToDecimal(n / 10);
      assert s[..|s| - 1] == prefix;
      NatDecimalRoundTrip(n / 10);
    }
  }

  lemma IntDecimalRoundTrip(i: int)
    ensures ParseDecimal(IntToDecimal(i)) == Some(i)
  {
    if i < 0 {
      SignedRoundTrip(-i);
    } else {
      var s := NatToDecimal(i);
      assert IsDigit(s[0]);
      NatDecimalRoundTrip(i);
      assert ParseDecimal(s) == Some(DecimalToNat(s) as int);
    }
  }

  /** The negative case: a minus sign followed by the digits of `n`. */
  lemma SignedRoundTrip(n: nat)
    requires n > 0
    ensures ParseDecimal("-" + NatToDecimal(n)) == Some(-(n as int))
  {
    var digits := NatToDecimal(n);
    var s := "-" + digits;
    assert s[1..] == digits;
    NatDecimalRoundTrip(n);
  }

  /** Distinct integers render as distinct strings. */
  lemma IntToDecimalInjective(a: int, b: int)
    requires a != b
    ensures IntToDecimal(a) != IntToDecimal(b)
  {
    IntDecimalRoundTrip(a);
    IntDecimalRoundTrip(b);
  }

  /** Strings that agree on a common prefix differ exactly where their tails do. */
  lemma PrefixCancels(p: string, x: string, y: string)
    ensures p + x == p + y ==> x == y
  {
    assert x == (p + x)[|p|..];
    assert y == (p + y)[|p|..];
  }
}

/** The protocol constants of the peer (Const.java). */
module Const {
  import opened Basics

  /** Hop budget given to every query and every freshly generated hit. */
  const TTL: int64 := 10

  /** Time-to-refresh, in seconds, given to a freshly created location. */
  const DEFAULT_TTR: int32 := 30
}

=== FILE: file_location.dfy ===
/**
 * The replica-metadata record of a shared file (FileLocation.java): where
 * the file can be fetched, its version, and the consistency flags that the
 * push (invalidate) and pull (time-to-refresh) mechanisms act on.
 */
module FileLocations {
  import opened Basics
  import Const

  /** An `InetSocketAddress`: host and port of a peer's registry. */
  datatype Address = Address(host: string, port: int32)

  datatype FileLocation = FileLocation(
    locationAddress: Address,
    fileName: string,
    fileSize: int64,
    version: int32,
    valid: bool,
    ttr: int32,
    expired: bool,
    timeStamp: int64)  // last local mutation, `System.currentTimeMillis()` at that moment

  /** The five-argument constructor; `now` stands for the clock reading
      taken by `updateTimeStamp`. */
  function New(address: Address, name: string, size: int64, version: int32, ttr: int32, now: int64): (l: FileLocation)
    ensures l.valid && !l.expired
    ensures l.version == version && l.ttr == ttr
    ensures l.locationAddress == address && l.fileName == name && l.fileSize == size
    ensures l.timeStamp == now
  {
    FileLocation(address, name, size, version, true, ttr, false, now)
  }

  /** The version a location created without an explicit one starts at. */
  const InitialVersion: int32 := 1

  /** The three-argument constructor used when a peer answers a query for a
      file on its disk: initial version and the default time-to-refresh. */
  function NewDefault(address: Address, name: string, size: int64, now: int64): (l: FileLocation)
    ensures l.valid && !l.expired
    ensures l.version == InitialVersion && l.ttr == Const.DEFAULT_TTR
    ensures l.locationAddress == address && l.fileName == name && l.fileSize == size
    ensures l.timeStamp == now
  {
    New(address, name, size, InitialVersion, Const.DEFAULT_TTR, now)
  }

  /** `setTtr`: a successful poll restarts the time-to-refresh. */
  function SetTtr(l: FileLocation, ttr: int32): (r: FileLocation)
    ensures r.ttr == ttr && !r.expired
    ensures r.version == l.version && r.valid == l.valid
    ensures r.locationAddress == l.locationAddress && r.fileName == l.fileName
    ensures r.fileSize == l.fileSize && r.timeStamp == l.timeStamp
  {
    l.(ttr := ttr, expired := false)
  }

  /** `tickTtr`: one period of decay. `tick` is the number of seconds per
      period (`UPDATE_TTR_PERIOD/1000` in the source); the subtraction is
      on a Java `int` and wraps. */
  function TickTtr(l: FileLocation, tick: int32): (r: FileLocation)
    ensures l.expired ==> r == l
    ensures !l.expired ==> r.ttr == Wrap32(l.ttr - tick) && (r.expired <==> r.ttr <= 0)
    ensures r.version == l.version && r.valid == l.valid
    ensures r.locationAddress == l.locationAddress && r.fileName == l.fileName
    ensures r.fileSize == l.fileSize && r.timeStamp == l.timeStamp
  {
    if l.expired then l
    else
      var ttr := Wrap32(l.ttr - tick);
      l.(ttr := ttr, expired := ttr <= 0)
  }

  /** `touch`: a local update; `version++` on a Java `int`. */
  function Touch(l: FileLocation, now: int64): (r: FileLocation)
    ensures r.version == Wrap32(l.version + 1)
    ensures l.version < Int32Max ==> r.version == l.version + 1
    ensures r.timeStamp == now
    ensures r.locationAddress == l.locationAddress && r.fileName == l.fileName && r.fileSize == l.fileSize
    ensures r.ttr == l.ttr && r.valid == l.valid && r.expired == l.expired
  {
    l.(version := Wrap32(l.version + 1), timeStamp := now)
  }

  /** `invalidate`: one-way. */
  function Invalidate(l: FileLocation): (r: FileLocation)
    ensures !r.valid
    ensures r.version == l.version && r.ttr == l.ttr && r.expired == l.expired
    ensures r.locationAddress == l.locationAddress && r.fileName == l.fileName
    ensures r.fileSize == l.fileSize && r.timeStamp == l.timeStamp
  {
    l.(valid := false)
  }

  /** `equals`: identity is the pair (address, file name). */
  predicate Equals(a: FileLocation, b: FileLocation) {
    a.locationAddress == b.locationAddress && a.fileName == b.fileName
  }

  /** The status suffix that `toString` appends after the TTR. */
  function StatusSuffix(l: FileLocation): (s: string)
    ensures !l.valid ==> s == "(INVALID)"
    ensures l.valid && l.expired ==> s == "(TTR EXPIRED)"
    ensures l.valid && !l.expired ==> s == ""
    ensures s == "" <==> l.valid && !l.expired
  {
    if !l.valid then "(INVALID)" else if l.expired then "(TTR EXPIRED)" else ""
  }

  // ---------------------------------------------------------------------
  // Properties of the record's state machine

  /** Every state transition the record offers. */
  datatype Op = SetTtrOp(ttr: int32) | TickOp(tick: int32) | TouchOp(now: int64) | InvalidateOp

  function Apply(l: FileLocation, op: Op): FileLocation {
    match op
    case SetTtrOp(v) => SetTtr(l, v)
    case TickOp(k) => TickTtr(l, k)
    case TouchOp(t) => Touch(l, t)
    case InvalidateOp => Invalidate(l)
  }

  function ApplyAll(l: FileLocation, ops: seq<Op>): FileLocation
    decreases |ops|
  {
    if |ops| == 0 then l else ApplyAll(Apply(l, ops[0]), ops[1..])
  }

  /** Once cleared, `valid` is never set again, whatever happens next;
      the identity of the location never changes either. */
  lemma {:induction false} InvalidIsSticky(l: FileLocation, ops: seq<Op>)
    ensures !l.valid ==> !ApplyAll(l, ops).valid
    ensures Equals(ApplyAll(l, ops), l)
    decreases |ops|
  {
    if |ops| > 0 {
      InvalidIsSticky(Apply(l, ops[0]), ops[1..]);
    }
  }

  lemma InvalidateIdempotent(l: FileLocation)
    ensures Invalidate(Invalidate(l)) == Invalidate(l)
    ensures !Invalidate(l).valid
  {
  }

  /** `touch` changes nothing but the version and the timestamp, and the
      version goes up by exactly one below the `int` limit. */
  lemma TouchBumpsVersion(l: FileLocation, now: int64)
    requires l.version < Int32Max
    ensures Touch(l, now) == l.(version := l.version + 1, timeStamp := now)
  {
  }

  /** `equals` is an equivalence relation that ignores everything but the
      identity pair. */
  lemma EqualsIsEquivalence(a: FileLocation, b: FileLocation, c: FileLocation)
    ensures Equals(a, a)
    ensures Equals(a, b) <==> Equals(b, a)
    ensures Equals(a, b) && Equals(b, c) ==> Equals(a, c)
  {
  }

  /** Any two records with the same address and name are equal, whatever
      their version, size, TTR, flags or timestamp. */
  lemma EqualsIgnoresMetadata(a: FileLocation, v: int32, size: int64, ttr: int32, valid: bool, expired: bool, t: int64)
    ensures Equals(a, a.(version := v, fileSize := size, ttr := ttr, valid := valid, expired := expired, timeStamp := t))
  {
  }

  /** Ticking `n` times. */
  function TickN(l: FileLocation, tick: int32, n: nat): FileLocation
    decreases n
  {
    if n == 0 then l else TickN(TickTtr(l, tick), tick, n - 1)
  }

  /** A measure that every tick of a not yet expired location decreases:
      a positive TTR counts down; a non-positive one wraps at most once. */
  function ExpiryMeasure(l: FileLocation): nat {
    if l.expired then 0 else if l.ttr > 0 then l.ttr + 1 else 0x8000_0001
  }

  lemma TickDecreasesMeasure(l: FileLocation, tick: int32)
    requires 0 < tick && !l.expired
    ensures ExpiryMeasure(TickTtr(l, tick)) < ExpiryMeasure(l)
  {
    if l.ttr > 0 {
      assert -0x8000_0000 <= l.ttr - tick;
    }
  }

  /** How many ticks of a positive unit it takes to expire. */
  function TicksToExpire(l: FileLocation, tick: int32): nat
    requires 0 < tick
    decreases ExpiryMeasure(l)
  {
    if l.expired then 0
    else
      TickDecreasesMeasure(l, tick);
      1 + TicksToExpire(TickTtr(l, tick), tick)
  }

  /** With a positive tick unit, ticking eventually latches `expired`, and
      not one tick earlier. */
  lemma {:induction false} TickingExpires(l: FileLocation, tick: int32, n: nat)
    requires 0 < tick
    ensures TickN(l, tick, TicksToExpire(l, tick)).expired
    ensures n < TicksToExpire(l, tick) ==> !TickN(l, tick, n).expired
    decreases ExpiryMeasure(l)
  {
    if !l.expired {
      TickDecreasesMeasure(l, tick);
      if n > 0 {
        TickingExpires(TickTtr(l, tick), tick, n - 1);
      } else {
        TickingExpires(TickTtr(l, tick), tick, 0);
      }
    }
  }

  /** Once expired, further ticks leave the location, TTR included, fixed. */
  lemma {:induction false} ExpiredIsFixed(l: FileLocation, tick: int32, n: nat)
    requires l.expired
    ensures TickN(l, tick, n) == l
    decreases n
  {
    if n > 0 {
      ExpiredIsFixed(l, tick, n - 1);
    }
  }

  /** A positive TTR expires after exactly `ceil(ttr / tick)` ticks. */
  lemma {:induction false} TicksFromPositive(l: FileLocation, tick: int32)
    requires !l.expired && 0 < l.ttr && 0 < tick
    ensures var k := TicksToExpire(l, tick); (k - 1) * tick < l.ttr <= k * tick
    decreases l.ttr
  {
    var next := TickTtr(l, tick);
    assert next.ttr == l.ttr - tick;
    if l.ttr > tick {
      TicksFromPositive(next, tick);
      var k' := TicksToExpire(next, tick);
      assert TicksToExpire(l, tick) == k' + 1;
      assert (k' - 1) * tick + tick == k' * tick;
      assert k' * tick + tick == (k' + 1) * tick;
    } else {
      assert next.expired;
      assert TicksToExpire(next, tick) == 0;
    }
  }

  /** After `setTtr(v)` with `v > 0`, the location stays fresh for
      `ceil(v / tick)` periods and expires on the last of them. */
  lemma SetTtrRestartsExpiry(l: FileLocation, v: int32, tick: int32)
    requires 0 < v && 0 < tick
    ensures var k := TicksToExpire(SetTtr(l, v), tick);
      (k - 1) * tick < v <= k * tick &&
      TickN(SetTtr(l, v), tick, k).expired &&
      forall n :: 0 <= n < k ==> !TickN(SetTtr(l, v), tick, n).expired
  {
    var m := SetTtr(l, v);
    TicksFromPositive(m, tick);
    TickingExpires(m, tick, 0);
    forall n | 0 <= n < TicksToExpire(m, tick) ensures !TickN(m, tick, n).expired {
      TickingExpires(m, tick, n);
    }
  }

  /** A positive TTR decays by exactly one tick per period (no wrap-around
      is possible on the way down to zero). */
  lemma TickFromPositive(l: FileLocation, tick: int32)
    requires !l.expired && 0 < l.ttr && 0 < tick
    ensures TickTtr(l, tick).ttr == l.ttr - tick
    ensures TickTtr(l, tick).expired <==> l.ttr <= tick
  {
  }
}

=== FILE: peer.dfy ===
/**
 * The flooding query protocol of one peer (Peer.java): the neighbour
 * directory, the ledger of seen message ids, the search-result list and
 * the message-id counter, with every inbound call (`search`, `query`,
 * `hitquery`, `hello`, `sayHello`) as one atomic transition that returns
 * the new state and the remote calls it makes.
 *
 * Remote objects are identified by `NodeId`: two stubs are `equals` exactly
 * when they carry the same id. A registry lookup is the `Registry` map: an
 * address is absent when the lookup throws.
 */
module Peers {
  import opened Basics
  import opened FileLocations
  import Const

  /** Identity of a remote `PeerNode` stub. */
  type NodeId = nat

  /** The stub each reachable registry hands out for the peer service. */
  type Registry = map<Address, NodeId>

  /** Files present in the shared directory: name to length in bytes. */
  type Disk = map<string, int64>

  /** A ledger entry: the peer itself (the query originated here) or the
      stub the message first arrived from. */
  datatype Upstream = Self | Node(id: NodeId)

  datatype Neighbor = Neighbor(address: Address, node: NodeId)

  /** A remote call made by a transition (the shapes of PeerNode.java). */
  datatype Message =
    | QueryCall(to: NodeId, msgId: string, ttl: int64, fileName: string, host: string, port: int32)
    | HitQueryCall(to: NodeId, msgId: string, ttl: int64, fileName: string, location: FileLocation)
    | HelloCall(to: NodeId, peerAddress: Address)

  datatype Peer = Peer(
    localAddress: string,
    localPort: int32,
    msgIdSeq: int32,
    neighbors: seq<Neighbor>,              // a Hashtable keyed by address
    seenMessages: map<string, Upstream>,
    localFiles: seq<FileLocation>,
    searchResults: seq<FileLocation>)      // `fileLocations` in the source

  datatype Step = Step(peer: Peer, calls: seq<Message>)

  function SelfAddress(p: Peer): Address {
    Address(p.localAddress, p.localPort)
  }

  /** The constructor: empty tables and a counter at zero. */
  function NewPeer(localAddress: string, localPort: int32): (p: Peer)
    ensures p.msgIdSeq == 0 && p.seenMessages == map[]
    ensures p.neighbors == [] && p.localFiles == [] && p.searchResults == []
    ensures SelfAddress(p) == Address(localAddress, localPort)
    ensures Valid(p)
  {
    Peer(localAddress, localPort, 0, [], map[], [], [])
  }

  // ---------------------------------------------------------------------
  // Neighbour directory

  /** No address has two entries. */
  predicate UniqueAddresses(ns: seq<Neighbor>)
    decreases |ns|
  {
    |ns| == 0 || (ns[0].address !in Addresses(ns[1..]) && UniqueAddresses(ns[1..]))
  }

  function Addresses(ns: seq<Neighbor>): set<Address>
    decreases |ns|
  {
    if |ns| == 0 then {} else {ns[0].address} + Addresses(ns[1..])
  }

  lemma {:induction false} AddressesMembership(ns: seq<Neighbor>, a: Address)
    ensures a in Addresses(ns) <==> exists i :: 0 <= i < |ns| && ns[i].address == a
    decreases |ns|
  {
    if |ns| > 0 {
      AddressesMembership(ns[1..], a);
      if exists i :: 0 <= i < |ns| && ns[i].address == a {
        var i :| 0 <= i < |ns| && ns[i].address == a;
        if i > 0 {
          assert ns[1..][i - 1].address == a;
        }
      }
    }
  }

  /** The recursive definition of `UniqueAddresses` says what it should:
      no two positions of the directory share an address. */
  lemma {:induction false} UniqueAddressesMeansDistinct(ns: seq<Neighbor>)
    ensures UniqueAddresses(ns) <==> forall i, j :: 0 <= i < j < |ns| ==> ns[i].address != ns[j].address
    decreases |ns|
  {
    if |ns| > 0 {
      UniqueAddressesMeansDistinct(ns[1..]);
      AddressesMembership(ns[1..], ns[0].address);
      if UniqueAddresses(ns) {
        forall i, j | 0 <= i < j < |ns| ensures ns[i].address != ns[j].address {
          assert ns[j] == ns[1..][j - 1];
          if i > 0 {
            assert ns[i] == ns[1..][i - 1];
          }
        }
      }
      if forall i, j :: 0 <= i < j < |ns| ==> ns[i].address != ns[j].address {
        forall i, j | 0 <= i < j < |ns[1..]| ensures ns[1..][i].address != ns[1..][j].address {
          assert ns[1..][i] == ns[i + 1] && ns[1..][j] == ns[j + 1];
        }
      }
    }
  }

  /** `Hashtable.put`: replaces the entry of an address in place, or
      appends one for a new address. */
  function Put(ns: seq<Neighbor>, a: Address, n: NodeId): (r: seq<Neighbor>)
    ensures Neighbor(a, n) in r
    ensures Addresses(r) == Addresses(ns) + {a}
    ensures forall e :: e in ns && e.address != a ==> e in r
    ensures forall e :: e in r && e.address != a ==> e in ns
    ensures UniqueAddresses(ns) ==> UniqueAddresses(r)
    ensures UniqueAddresses(ns) ==> forall e :: e in r && e.address == a ==> e.node == n
    ensures a in Addresses(ns) ==> |r| == |ns|
    ensures a !in Addresses(ns) ==> |r| == |ns| + 1
    decreases |ns|
  {
    if |ns| == 0 then [Neighbor(a, n)]
    else if ns[0].address == a then
      var r := [Neighbor(a, n)] + ns[1..];
      assert r[1..] == ns[1..];
      assert forall e :: e in r <==> e == Neighbor(a, n) || e in ns[1..];
      assert forall e :: e in ns <==> e == ns[0] || e in ns[1..];
      AddressesMembership(ns[1..], a);
      r
    else
      var rest := Put(ns[1..], a, n);
      var r := [ns[0]] + rest;
      assert r[1..] == rest;
      assert forall e :: e in r <==> e == ns[0] || e in rest;
      assert forall e :: e in ns <==> e == ns[0] || e in ns[1..];
      r
  }

  /** How many directory entries hold the stub `n`. */
  function Occurrences(ns: seq<Neighbor>, n: NodeId): nat {
    if |ns| == 0 then 0 else (if ns[0].node == n then 1 else 0) + Occurrences(ns[1..], n)
  }

  /** How many of `calls` are queries to the stub `n`. */
  function QueriesTo(calls: seq<Message>, n: NodeId): nat {
    if |calls| == 0 then 0
    else (if calls[0].QueryCall? && calls[0].to == n then 1 else 0) + QueriesTo(calls[1..], n)
  }

  lemma {:induction false} QueriesToAppend(a: seq<Message>, b: seq<Message>)
    ensures forall n :: QueriesTo(a + b, n) == QueriesTo(a, n) + QueriesTo(b, n)
    decreases |a|
  {
    if |a| == 0 {
      assert a + b == b;
    } else {
      assert (a + b)[1..] == a[1..] + b;
      QueriesToAppend(a[1..], b);
    }
  }

  /** Queries followed by hits: the queries come first, and the hits add no
      query to anyone. */
  lemma QueriesThenHits(queries: seq<Message>, hits: seq<Message>)
    requires forall m :: m in queries ==> m.QueryCall?
    requires forall m :: m in hits ==> m.HitQueryCall?
    ensures forall n :: QueriesTo(queries + hits, n) == QueriesTo(queries, n)
    ensures forall i :: 0 <= i < |queries| ==> (queries + hits)[i].QueryCall?
    ensures forall m :: m in queries + hits ==> m in queries || m in hits
  {
    QueriesToAppend(queries, hits);
    NoQueries(hits);
    assert forall i :: 0 <= i < |queries| ==> (queries + hits)[i] == queries[i];
  }

  lemma {:induction false} NoQueries(hits: seq<Message>)
    requires forall m :: m in hits ==> m.HitQueryCall?
    ensures forall n :: QueriesTo(hits, n) == 0
    decreases |hits|
  {
    if |hits| > 0 {
      assert hits[0] in hits && forall m :: m in hits[1..] ==> m in hits;
      NoQueries(hits[1..]);
    }
  }

  /** The query fan-out of `query`: one call per directory entry whose stub
      is not the sender's, each carrying the ttl the query arrived with. */
  function Forward(ns: seq<Neighbor>, sender: NodeId, msgId: string, ttl: int64, name: string,
                   host: string, port: int32): (r: seq<Message>)
    ensures |r| == |ns| - Occurrences(ns, sender)
    ensures forall m :: m in r ==> m == QueryCall(m.to, msgId, ttl, name, host, port) && m.to != sender
    ensures forall m :: m in r ==> exists e :: e in ns && e.node == m.to
    ensures forall e :: e in ns && e.node != sender ==> QueryCall(e.node, msgId, ttl, name, host, port) in r
    ensures forall n :: QueriesTo(r, n) == if n == sender then 0 else Occurrences(ns, n)
  {
    if |ns| == 0 then []
    else
      var rest := Forward(ns[1..], sender, msgId, ttl, name, host, port);
      assert forall e :: e in ns ==> e == ns[0] || e in ns[1..];
      if ns[0].node == sender then rest
      else
        var r := [QueryCall(ns[0].node, msgId, ttl, name, host, port)] + rest;
        assert r[1..] == rest;
        r
  }

  // ---------------------------------------------------------------------
  // search

  /** `addr:port_seq`. */
  function MsgId(host: string, port: int32, counter: int32): string {
    host + ":" + IntToDecimal(port) + "_" + IntToDecimal(counter)
  }

  /** Ids minted from different counter values by the same peer differ. */
  lemma MsgIdInjective(host: string, port: int32, s: int32, t: int32)
    requires s != t
    ensures MsgId(host, port, s) != MsgId(host, port, t)
  {
    IntToDecimalInjective(s, t);
    PrefixCancels(host + ":" + IntToDecimal(port) + "_", IntToDecimal(s), IntToDecimal(t));
  }

  /** The calls a fan-out without exception handling gets to make: each in
      turn, up to and including the first one to a stub that throws. */
  function UntilFailure(calls: seq<Message>, down: set<NodeId>): (r: seq<Message>)
    ensures r <= calls
    ensures forall m :: m in r ==> m in calls
    ensures forall i :: 0 <= i < |r| - 1 ==> r[i].to !in down
    ensures AllReachable(calls, down) ==> r == calls
    ensures !AllReachable(calls, down) ==> |r| > 0 && r[|r| - 1].to in down
  {
    if |calls| == 0 then []
    else if calls[0].to in down then [calls[0]]
    else
      var rest := UntilFailure(calls[1..], down);
      assert forall i :: 1 <= i < |calls| ==> calls[i] == calls[1..][i - 1];
      [calls[0]] + rest
  }

  predicate AllReachable(calls: seq<Message>, down: set<NodeId>) {
    forall i :: 0 <= i < |calls| ==> calls[i].to !in down
  }

  datatype SearchStep = SearchStep(peer: Peer, calls: seq<Message>, threw: bool)

  /** One query call per directory entry, in directory order. */
  function Broadcast(ns: seq<Neighbor>, msgId: string, ttl: int64, name: string, host: string, port: int32): (r: seq<Message>)
    ensures |r| == |ns|
    ensures forall i :: 0 <= i < |ns| ==> r[i] == QueryCall(ns[i].node, msgId, ttl, name, host, port)
  {
    if |ns| == 0 then [] else [QueryCall(ns[0].node, msgId, ttl, name, host, port)] + Broadcast(ns[1..], msgId, ttl, name, host, port)
  }

  /** What an unguarded broadcast gets to send: queries in directory order,
      with the given payload, up to the first throwing stub; the broadcast
      is complete iff no entry's stub throws. */
  lemma BroadcastUntilFailure(ns: seq<Neighbor>, msgId: string, ttl: int64, name: string, host: string, port: int32,
                              down: set<NodeId>)
    ensures var all := Broadcast(ns, msgId, ttl, name, host, port);
      var calls := UntilFailure(all, down);
      (forall m :: m in calls ==> m == QueryCall(m.to, msgId, ttl, name, host, port)) &&
      |calls| <= |ns| &&
      (forall i :: 0 <= i < |calls| ==> calls[i].to == ns[i].node) &&
      (AllReachable(all, down) <==> forall i :: 0 <= i < |ns| ==> ns[i].node !in down)
  {
    var all := Broadcast(ns, msgId, ttl, name, host, port);
    var calls := UntilFailure(all, down);
    forall m | m in calls ensures m == QueryCall(m.to, msgId, ttl, name, host, port) {
      var i :| 0 <= i < |all| && all[i] == m;
    }
    assert forall i :: 0 <= i < |calls| ==> calls[i] == all[i];
  }

  /** `search`: mints `addr:port_seq`, advances the counter, records the id
      as originated here, and queries every neighbour with the full TTL.
      The loop has no handler: the first neighbour whose call throws ends
      the fan-out and the exception reaches the operator, after the state
      change has happened. `down` is the set of stubs whose call throws. */
  function Search(p: Peer, name: string, down: set<NodeId>): (r: SearchStep)
    ensures r.peer == Originate(p)
    ensures forall m :: m in r.calls ==>
      m == QueryCall(m.to, NextMsgId(p), Const.TTL, name, p.localAddress, p.localPort)
    ensures |r.calls| <= |p.neighbors|
    ensures forall i :: 0 <= i < |r.calls| ==> r.calls[i].to == p.neighbors[i].node
    ensures !r.threw <==> forall i :: 0 <= i < |p.neighbors| ==> p.neighbors[i].node !in down
    ensures !r.threw ==> |r.calls| == |p.neighbors|
    ensures r.threw ==> |r.calls| > 0 && r.calls[|r.calls| - 1].to in down
    ensures forall i :: 0 <= i < |r.calls| - 1 ==> r.calls[i].to !in down
    ensures Valid(p) ==> Valid(r.peer)
  {
    var id := NextMsgId(p);
    var all := Broadcast(p.neighbors, id, Const.TTL, name, p.localAddress, p.localPort);
    var calls := UntilFailure(all, down);
    BroadcastUntilFailure(p.neighbors, id, Const.TTL, name, p.localAddress, p.localPort, down);
    SearchStep(Originate(p), calls, !AllReachable(all, down))
  }

  /** The state change of `search`, made before the fan-out and kept even
      when the fan-out throws: the counter advances (wrapping as an `int`)
      and the minted id is recorded as originated here. */
  function Originate(p: Peer): (r: Peer)
    ensures r.msgIdSeq == Wrap32(p.msgIdSeq + 1)
    ensures r.seenMessages == p.seenMessages[NextMsgId(p) := Self]
    ensures r.localAddress == p.localAddress && r.localPort == p.localPort
    ensures r.neighbors == p.neighbors && r.localFiles == p.localFiles && r.searchResults == p.searchResults
    ensures Valid(p) ==> Valid(r)
  {
    p.(msgIdSeq := Wrap32(p.msgIdSeq + 1), seenMessages := p.seenMessages[NextMsgId(p) := Self])
  }

  /** The id the next `search` of `p` mints. */
  function NextMsgId(p: Peer): string {
    MsgId(p.localAddress, p.localPort, p.msgIdSeq)
  }

  /** `n` operator searches in a row: the peer afterwards and the ids
      minted, in order. By `Search`'s contract its state change is
      `Originate`, whatever the file name and whichever neighbours throw. */
  function Searches(p: Peer, n: nat): (r: (Peer, seq<string>))
    ensures |r.1| == n
    ensures r.0.localAddress == p.localAddress && r.0.localPort == p.localPort
    decreases n
  {
    if n == 0 then (p, [])
    else
      var rest := Searches(Originate(p), n - 1);
      (rest.0, [NextMsgId(p)] + rest.1)
  }

  /** The ids that `n` successive searches mint from a counter starting at
      `counter`, one per increment; `mint` renders a counter value as an id. */
  function Minted(mint: int32 -> string, counter: int32, n: nat): (r: seq<string>)
    ensures |r| == n
    decreases n
  {
    if n == 0 then [] else [mint(counter)] + Minted(mint, Wrap32(counter + 1), n - 1)
  }

  /** The id rendering of a peer at `host`:`port`. */
  function IdsAt(host: string, port: int32): int32 -> string {
    (c: int32) => MsgId(host, port, c)
  }

  /** A run of searches by the peer at `host`:`port` whose counter starts at
      `counter` mints exactly the ids of consecutive counter values. */
  lemma {:induction false} SearchesMintIds(p: Peer, n: nat, host: string, port: int32, counter: int32)
    requires p.localAddress == host && p.localPort == port && p.msgIdSeq == counter
    ensures Searches(p, n).1 == Minted(IdsAt(host, port), counter, n)
    decreases n
  {
    if n > 0 {
      var next := Originate(p);
      SearchesMintIds(next, n - 1, host, port, Wrap32(counter + 1));
      assert IdsAt(host, port)(counter) == NextMsgId(p);
    }
  }

  /** The `i`-th minted id is the one of the counter advanced `i` times. */
  lemma {:induction false} MintedAt(mint: int32 -> string, counter: int32, n: nat, i: nat)
    requires i < n
    ensures Minted(mint, counter, n)[i] == mint(Wrap32(counter + i))
    decreases i
  {
    var rest := Minted(mint, Wrap32(counter + 1), n - 1);
    if i > 0 {
      MintedAt(mint, Wrap32(counter + 1), n - 1, i - 1);
      CounterAdvances(counter, Wrap32(counter + 1), i - 1);
      ConsIndex(mint(counter), rest, i);
    }
  }

  /** Counting `k` further from the incremented counter reaches the same
      value as counting `k + 1` from the original one. */
  lemma CounterAdvances(counter: int32, next: int32, k: nat)
    requires next == Wrap32(counter + 1)
    ensures Wrap32(next + k) == Wrap32(counter + (k + 1))
  {
    Wrap32Shift(counter + 1, k);
  }

  lemma ConsIndex(x: string, rest: seq<string>, i: nat)
    requires 0 < i <= |rest|
    ensures ([x] + rest)[i] == rest[i - 1]
  {
  }

  /** No two searches of one run share an id, as long as the run does not
      wrap the counter all the way round. */
  lemma SearchIdsDistinct(p: Peer, n: nat, i: nat, j: nat)
    requires i < j < n <= 0x1_0000_0000
    ensures Searches(p, n).1[i] != Searches(p, n).1[j]
  {
    var mint := IdsAt(p.localAddress, p.localPort);
    SearchesMintIds(p, n, p.localAddress, p.localPort, p.msgIdSeq);
    IdsAtInjective(p.localAddress, p.localPort);
    MintedDistinct(mint, p.msgIdSeq, n, i, j);
  }

  /** A peer renders different counter values as different ids. */
  lemma IdsAtInjective(host: string, port: int32)
    ensures forall a: int32, b: int32 :: a != b ==> IdsAt(host, port)(a) != IdsAt(host, port)(b)
  {
    forall a: int32, b: int32 | a != b ensures IdsAt(host, port)(a) != IdsAt(host, port)(b) {
      MsgIdInjective(host, port, a, b);
    }
  }

  /** With an injective rendering, a run shorter than the counter's period
      mints no id twice. */
  lemma MintedDistinct(mint: int32 -> string, counter: int32, n: nat, i: nat, j: nat)
    requires i < j < n <= 0x1_0000_0000
    requires forall a: int32, b: int32 :: a != b ==> mint(a) != mint(b)
    ensures Minted(mint, counter, n)[i] != Minted(mint, counter, n)[j]
  {
    MintedAt(mint, counter, n, i);
    MintedAt(mint, counter, n, j);
    Wrap32Distinct(counter, i, j);
  }

  // ---------------------------------------------------------------------
  // query

  /** `query`, as run by its handler thread.
      - A message id already in the ledger is a duplicate: nothing happens.
      - If the sender's registry lookup throws, the handler returns without
        recording anything.
      - Otherwise the id is recorded against the sender's stub; when
        `ttl - 1 > 0` (on a `long`) the query is passed on, with the ttl it
        arrived with, to every neighbour except the sender (each call has
        its own handler, so a failing neighbour does not stop the rest);
        and when the file is on disk a hit with a fresh location pointing at
        this peer goes to the sender with the full TTL.
      `now` is the clock reading stamped on the fresh location. */
  function Query(p: Peer, msgId: string, ttl: int64, fileName: string, host: string, port: int32,
                 registry: Registry, disk: Disk, now: int64): (r: Step)
    ensures msgId in p.seenMessages ==> r == Step(p, [])
    ensures Address(host, port) !in registry ==> r == Step(p, [])
    ensures msgId !in p.seenMessages && Address(host, port) in registry ==>
      r.peer == p.(seenMessages := p.seenMessages[msgId := Node(registry[Address(host, port)])])
    ensures forall m :: m in r.calls ==> !m.HelloCall? && m.msgId == msgId
    ensures forall m :: m in r.calls && m.QueryCall? ==>
      m.to != registry[Address(host, port)] && m.ttl == ttl && m.fileName == fileName &&
      m.host == p.localAddress && m.port == p.localPort
    ensures forall m :: m in r.calls && m.HitQueryCall? ==>
      m.to == registry[Address(host, port)] && m.ttl == Const.TTL && fileName in disk &&
      m.location == NewDefault(SelfAddress(p), fileName, disk[fileName], now)
    ensures (exists m :: m in r.calls && m.QueryCall?) ==> Wrap64(ttl - 1) > 0
    ensures (exists m :: m in r.calls && m.HitQueryCall?) <==>
      msgId !in p.seenMessages && Address(host, port) in registry && fileName in disk
    ensures forall m :: m in r.calls && m.QueryCall? ==> exists e :: e in p.neighbors && e.node == m.to
    ensures msgId !in p.seenMessages && Address(host, port) in registry ==>
      forall n :: QueriesTo(r.calls, n) ==
        if n == registry[Address(host, port)] || Wrap64(ttl - 1) <= 0 then 0 else Occurrences(p.neighbors, n)
    ensures msgId !in p.seenMessages && Address(host, port) in registry ==>
      |r.calls| == (if Wrap64(ttl - 1) > 0
                    then |p.neighbors| - Occurrences(p.neighbors, registry[Address(host, port)])
                    else 0) + (if fileName in disk then 1 else 0)
    ensures msgId !in p.seenMessages && Address(host, port) in registry && fileName in disk ==>
      r.calls[|r.calls| - 1].HitQueryCall?
    ensures forall i :: 0 <= i < |r.calls| - (if fileName in disk then 1 else 0) ==> r.calls[i].QueryCall?
    ensures Valid(p) ==> Valid(r.peer)
  {
    if msgId in p.seenMessages then Step(p, [])
    else if Address(host, port) !in registry then Step(p, [])
    else
      var sender := registry[Address(host, port)];
      Step(p.(seenMessages := p.seenMessages[msgId := Node(sender)]),
           Reply(p, sender, msgId, ttl, fileName, disk, now))
  }

  /** The calls `query` makes on first sight of an id from `sender`: the
      fan-out when `ttl - 1 > 0` (on a `long`), then a hit for a file on
      disk, with a fresh location stamped `now`. */
  function Reply(p: Peer, sender: NodeId, msgId: string, ttl: int64, fileName: string,
                 disk: Disk, now: int64): (calls: seq<Message>)
    ensures forall m :: m in calls ==> !m.HelloCall? && m.msgId == msgId
    ensures forall m :: m in calls && m.QueryCall? ==>
      m.to != sender && m.ttl == ttl && m.fileName == fileName &&
      m.host == p.localAddress && m.port == p.localPort &&
      exists e :: e in p.neighbors && e.node == m.to
    ensures forall m :: m in calls && m.HitQueryCall? ==>
      m.to == sender && m.ttl == Const.TTL && fileName in disk &&
      m.location == NewDefault(SelfAddress(p), fileName, disk[fileName], now)
    ensures (exists m :: m in calls && m.QueryCall?) ==> Wrap64(ttl - 1) > 0
    ensures (exists m :: m in calls && m.HitQueryCall?) <==> fileName in disk
    ensures forall n ::
      QueriesTo(calls, n) == if n == sender || Wrap64(ttl - 1) <= 0 then 0 else Occurrences(p.neighbors, n)
    ensures |calls| == (if Wrap64(ttl - 1) > 0 then |p.neighbors| - Occurrences(p.neighbors, sender) else 0) +
                       (if fileName in disk then 1 else 0)
    ensures fileName in disk ==> calls[|calls| - 1].HitQueryCall?
    ensures forall i :: 0 <= i < |calls| - (if fileName in disk then 1 else 0) ==> calls[i].QueryCall?
  {
    var forwards := if Wrap64(ttl - 1) > 0
      then Forward(p.neighbors, sender, msgId, ttl, fileName, p.localAddress, p.localPort)
      else [];
    var hit := if fileName in disk
      then [HitQueryCall(sender, msgId, Const.TTL, fileName, NewDefault(SelfAddress(p), fileName, disk[fileName], now))]
      else [];
    assert fileName in disk ==> hit[0] in forwards + hit;
    QueriesThenHits(forwards, hit);
    forwards + hit
  }

  /** On first sight, every neighbour but the sender is queried when the
      decremented ttl is positive, and none is when it is not. */
  lemma QueryFansOut(p: Peer, msgId: string, ttl: int64, fileName: string, host: string, port: int32,
                     registry: Registry, disk: Disk, now: int64, e: Neighbor)
    requires msgId !in p.seenMessages && Address(host, port) in registry
    requires e in p.neighbors && e.node != registry[Address(host, port)]
    ensures var r := Query(p, msgId, ttl, fileName, host, port, registry, disk, now);
      QueryCall(e.node, msgId, ttl, fileName, p.localAddress, p.localPort) in r.calls <==> Wrap64(ttl - 1) > 0
  {
  }

  /** Below the `long` limit the forwarding test is the plain `ttl > 1`;
      at `Long.MIN_VALUE` the decrement wraps and the query is forwarded. */
  lemma ForwardingThreshold(ttl: int64)
    ensures ttl != Int64Min ==> (Wrap64(ttl - 1) > 0 <==> ttl > 1)
    ensures ttl == Int64Min ==> Wrap64(ttl - 1) > 0
  {
  }

  // ---------------------------------------------------------------------
  // hitquery

  predicate ContainsEqual(rs: seq<FileLocation>, l: FileLocation) {
    exists i :: 0 <= i < |rs| && Equals(rs[i], l)
  }

  /** No two entries of the list are `equals`. */
  predicate NoTwoEqual(rs: seq<FileLocation>) {
    forall i, j :: 0 <= i < j < |rs| ==> !Equals(rs[i], rs[j])
  }

  /** `hitquery`, as run by its handler thread.
      - An id not in the ledger is unroutable: nothing happens.
      - If the query originated here, the location is added to the results
        unless an `equals` one is already there.
      - Otherwise the hit goes to the recorded upstream with `ttl - 1` (on
        a `long`) when that is positive, and is dropped when it is not. */
  function HitQuery(p: Peer, msgId: string, ttl: int64, fileName: string, location: FileLocation): (r: Step)
    ensures msgId !in p.seenMessages ==> r == Step(p, [])
    ensures msgId in p.seenMessages && p.seenMessages[msgId] == Self ==>
      r.calls == [] && r.peer == p.(searchResults := r.peer.searchResults) &&
      ContainsEqual(r.peer.searchResults, location) &&
      (ContainsEqual(p.searchResults, location) <==> r.peer.searchResults == p.searchResults) &&
      (!ContainsEqual(p.searchResults, location) <==> r.peer.searchResults == p.searchResults + [location])
    ensures msgId in p.seenMessages && p.seenMessages[msgId].Node? ==>
      r.peer == p &&
      r.calls == (if Wrap64(ttl - 1) > 0
                  then [HitQueryCall(p.seenMessages[msgId].id, msgId, Wrap64(ttl - 1), fileName, location)]
                  else [])
    ensures Valid(p) ==> Valid(r.peer)
  {
    if msgId !in p.seenMessages then Step(p, [])
    else
      match p.seenMessages[msgId]
      case Self =>
        if ContainsEqual(p.searchResults, location) then Step(p, [])
        else
          var rs := p.searchResults + [location];
          assert rs[|rs| - 1] == location;
          assert forall i :: 0 <= i < |p.searchResults| ==> rs[i] == p.searchResults[i];
          Step(p.(searchResults := rs), [])
      case Node(up) =>
        if Wrap64(ttl - 1) > 0 then Step(p, [HitQueryCall(up, msgId, Wrap64(ttl - 1), fileName, location)])
        else Step(p, [])
  }

  // ---------------------------------------------------------------------
  // Neighbour handshake

  datatype HelloStep = HelloStep(peer: Peer, accepted: bool)

  /** `hello` (receiver side): look the caller up and record it as a
      neighbour; false when the lookup throws. */
  function Hello(p: Peer, peerAddress: Address, registry: Registry): (r: HelloStep)
    ensures r.accepted <==> peerAddress in registry
    ensures !r.accepted ==> r.peer == p
    ensures r.accepted ==> (r.peer == p.(neighbors := r.peer.neighbors) &&
      Neighbor(peerAddress, registry[peerAddress]) in r.peer.neighbors &&
      Addresses(r.peer.neighbors) == Addresses(p.neighbors) + {peerAddress})
    ensures forall e :: e in p.neighbors && e.address != peerAddress ==> e in r.peer.neighbors
    ensures forall e :: e in r.peer.neighbors && e.address != peerAddress ==> e in p.neighbors
    ensures Valid(p) ==> Valid(r.peer)
  {
    if peerAddress in registry then
      HelloStep(p.(neighbors := Put(p.neighbors, peerAddress, registry[peerAddress])), true)
    else HelloStep(p, false)
  }

  /** What the remote `hello` call does: returns true or false, or throws. */
  datatype HelloReply = Accepted | Refused | Unreachable

  /** `result` is `None` when an exception reaches the caller. */
  datatype SayHelloStep = SayHelloStep(peer: Peer, calls: seq<Message>, result: Option<bool>)

  /** `sayHello`: look the address up, call its `hello` with this peer's
      address, and record the neighbour only if that call returns true. */
  function SayHello(p: Peer, addr: Address, registry: Registry, reply: HelloReply): (r: SayHelloStep)
    ensures addr !in registry ==> r == SayHelloStep(p, [], None)
    ensures addr in registry ==> r.calls == [HelloCall(registry[addr], SelfAddress(p))]
    ensures r.result == Some(true) <==> addr in registry && reply == Accepted
    ensures addr in registry && reply == Refused ==> r.result == Some(false)
    ensures reply == Unreachable ==> r.result == None
    ensures r.result != Some(true) ==> r.peer == p
    ensures r.result == Some(true) ==> (r.peer == p.(neighbors := r.peer.neighbors) &&
      Neighbor(addr, registry[addr]) in r.peer.neighbors &&
      Addresses(r.peer.neighbors) == Addresses(p.neighbors) + {addr})
    ensures forall e :: e in p.neighbors && e.address != addr ==> e in r.peer.neighbors
    ensures forall e :: e in r.peer.neighbors && e.address != addr ==> e in p.neighbors
    ensures Valid(p) ==> Valid(r.peer)
  {
    if addr !in registry then SayHelloStep(p, [], None)
    else
      var n := registry[addr];
      var call := [HelloCall(n, SelfAddress(p))];
      match reply
      case Accepted => SayHelloStep(p.(neighbors := Put(p.neighbors, addr, n)), call, Some(true))
      case Refused => SayHelloStep(p, call, Some(false))
      case Unreachable => SayHelloStep(p, call, None)
  }

  // ---------------------------------------------------------------------
  // Invariants over any sequence of inbound calls

  /** At most one neighbour per address, and no two `equals` results. */
  predicate Valid(p: Peer) {
    UniqueAddresses(p.neighbors) && NoTwoEqual(p.searchResults)
  }

  /** An inbound call or operator command. Each event carries the registry
      and shared directory it sees, so both may change along a run. */
  datatype Event =
    | SearchEvent(name: string, down: set<NodeId>)
    | QueryEvent(msgId: string, ttl: int64, fileName: string, host: string, port: int32, now: int64,
                 registry: Registry, disk: Disk)
    | HitQueryEvent(msgId: string, ttl: int64, fileName: string, location: FileLocation)
    | HelloEvent(peerAddress: Address, registry: Registry)
    | SayHelloEvent(addr: Address, reply: HelloReply, registry: Registry)

  function Deliver(p: Peer, e: Event): Step {
    match e
    case SearchEvent(name, down) =>
      var s := Search(p, name, down);
      Step(s.peer, s.calls)
    case QueryEvent(id, ttl, name, host, port, now, registry, disk) => Query(p, id, ttl, name, host, port, registry, disk, now)
    case HitQueryEvent(id, ttl, name, l) => HitQuery(p, id, ttl, name, l)
    case HelloEvent(a, registry) => Step(Hello(p, a, registry).peer, [])
    case SayHelloEvent(a, reply, registry) =>
      var s := SayHello(p, a, registry, reply);
      Step(s.peer, s.calls)
  }

  /** The peer after handling `es` in order, and every call it made. */
  function Run(p: Peer, es: seq<Event>): Step
    decreases |es|
  {
    if |es| == 0 then Step(p, [])
    else
      var first := Deliver(p, es[0]);
      var rest := Run(first.peer, es[1..]);
      Step(rest.peer, first.calls + rest.calls)
  }

  /** Whatever arrives, in whatever order: the directory keeps one entry per
      address, the result list never holds two `equals` locations, ids are
      never forgotten, and the results only grow. */
  lemma {:induction false} RunPreservesInvariants(p: Peer, es: seq<Event>)
    requires Valid(p)
    ensures var q := Run(p, es).peer;
      Valid(q) && p.seenMessages.Keys <= q.seenMessages.Keys && p.searchResults <= q.searchResults
    decreases |es|
  {
    if |es| > 0 {
      var first := Deliver(p, es[0]);
      assert Valid(first.peer);
      assert p.seenMessages.Keys <= first.peer.seenMessages.Keys;
      assert p.searchResults <= first.peer.searchResults;
      RunPreservesInvariants(first.peer, es[1..]);
    }
  }

  /** Only `search` moves the message-id counter: every other handler keeps
      it, and no handler changes the peer's own address. */
  lemma DeliverKeepsCounter(p: Peer, e: Event)
    requires !e.SearchEvent?
    ensures var q := Deliver(p, e).peer;
      q.msgIdSeq == p.msgIdSeq && q.localAddress == p.localAddress && q.localPort == p.localPort
  {
  }

  /** How many of `es` are operator searches. */
  function SearchCount(es: seq<Event>): nat {
    if |es| == 0 then 0 else (if es[0].SearchEvent? then 1 else 0) + SearchCount(es[1..])
  }

  /** One event's effect on what id minting depends on: the counter moves
      by one (wrapping as an `int`) exactly on a search, and the peer's own
      address and port stay put. */
  predicate Advances(p: Peer, e: Event, q: Peer) {
    q.localAddress == p.localAddress && q.localPort == p.localPort &&
    q.msgIdSeq == if e.SearchEvent? then Wrap32(p.msgIdSeq + 1) else p.msgIdSeq
  }

  lemma DeliverAdvances(p: Peer, e: Event)
    ensures Advances(p, e, Deliver(p, e).peer)
  {
    if !e.SearchEvent? {
      DeliverKeepsCounter(p, e);
    }
  }

  /** The ids the searches among `es` mint when each event takes the peer
      from `p` to `next(p, e)`. */
  function SearchIdsAlong(next: (Peer, Event) -> Peer, p: Peer, es: seq<Event>): (r: seq<string>)
    ensures |r| == SearchCount(es)
    decreases |es|
  {
    if |es| == 0 then []
    else (if es[0].SearchEvent? then [NextMsgId(p)] else []) + SearchIdsAlong(next, next(p, es[0]), es[1..])
  }

  /** The ids the searches among `es` mint while `Run` handles them, in
      order: at each search, the id the peer's state then gives. */
  function RunSearchIds(p: Peer, es: seq<Event>): (r: seq<string>)
    ensures |r| == SearchCount(es)
  {
    SearchIdsAlong((q: Peer, e: Event) => Deliver(q, e).peer, p, es)
  }

  /** Along any steps that advance the counter exactly on searches, the
      searches mint the ids of consecutive counter values. */
  lemma {:induction false} AlongMintsIds(next: (Peer, Event) -> Peer, p: Peer, es: seq<Event>)
    requires forall q: Peer, e: Event :: Advances(q, e, next(q, e))
    ensures SearchIdsAlong(next, p, es) == Minted(IdsAt(p.localAddress, p.localPort), p.msgIdSeq, SearchCount(es))
    decreases |es|
  {
    if |es| > 0 {
      AlongMintsIds(next, next(p, es[0]), es[1..]);
      if es[0].SearchEvent? {
        assert IdsAt(p.localAddress, p.localPort)(p.msgIdSeq) == NextMsgId(p);
      }
    }
  }

  /** Interleaved with any other inbound calls, the searches of a run mint
      the ids of consecutive counter values. */
  lemma RunMintsIds(p: Peer, es: seq<Event>)
    ensures RunSearchIds(p, es) == Minted(IdsAt(p.localAddress, p.localPort), p.msgIdSeq, SearchCount(es))
  {
    var next := (q: Peer, e: Event) => Deliver(q, e).peer;
    forall q: Peer, e: Event ensures Advances(q, e, next(q, e)) {
      DeliverAdvances(q, e);
    }
    AlongMintsIds(next, p, es);
  }

  /** No two searches of a run share an id, whatever other calls arrive in
      between, as long as the run has at most 2^32 searches. */
  lemma RunSearchIdsDistinct(p: Peer, es: seq<Event>, i: nat, j: nat)
    requires i < j < SearchCount(es) <= 0x1_0000_0000
    ensures RunSearchIds(p, es)[i] != RunSearchIds(p, es)[j]
  {
    RunMintsIds(p, es);
    IdsAtInjective(p.localAddress, p.localPort);
    MintedDistinct(IdsAt(p.localAddress, p.localPort), p.msgIdSeq, SearchCount(es), i, j);
  }

  /** First writer wins: `query`, `hitquery`, `hello` and `sayHello` never
      overwrite a ledger entry (only the originating `search` writes one,
      for the id it mints). */
  lemma LedgerFirstWriterWins(p: Peer, e: Event, k: string)
    requires !e.SearchEvent? && k in p.seenMessages
    ensures var q := Deliver(p, e).peer;
      k in q.seenMessages && q.seenMessages[k] == p.seenMessages[k]
  {
  }

  /** Every hit forwarded by `hitquery` goes back along the ledger's
      recorded edge, and the result list is left alone when the query did
      not originate here. */
  lemma HitQueryFollowsLedger(p: Peer, msgId: string, ttl: int64, fileName: string, location: FileLocation, m: Message)
    requires msgId in p.seenMessages && p.seenMessages[msgId].Node?
    requires m in HitQuery(p, msgId, ttl, fileName, location).calls
    ensures m.HitQueryCall? && m.to == p.seenMessages[msgId].id && m.location == location
    ensures m.ttl == Wrap64(ttl - 1) > 0
    ensures HitQuery(p, msgId, ttl, fileName, location).peer.searchResults == p.searchResults
  {
  }

  /** Number of hits for message `m` among `calls`. */
  function HitsFor(calls: seq<Message>, m: string): nat {
    if |calls| == 0 then 0
    else (if calls[0].HitQueryCall? && calls[0].msgId == m then 1 else 0) + HitsFor(calls[1..], m)
  }

  lemma {:induction false} HitsForAppend(a: seq<Message>, b: seq<Message>, m: string)
    ensures HitsFor(a + b, m) == HitsFor(a, m) + HitsFor(b, m)
    decreases |a|
  {
    if |a| > 0 {
      assert (a + b)[1..] == a[1..] + b;
      HitsForAppend(a[1..], b, m);
    } else {
      assert a + b == b;
    }
  }

  lemma {:induction false} HitsForNone(calls: seq<Message>, m: string)
    requires forall c :: c in calls ==> !(c.HitQueryCall? && c.msgId == m)
    ensures HitsFor(calls, m) == 0
    decreases |calls|
  {
    if |calls| > 0 {
      assert calls[0] in calls;
      assert forall c :: c in calls[1..] ==> c in calls;
      HitsForNone(calls[1..], m);
    }
  }

  lemma QueryHitsAtMostOne(p: Peer, msgId: string, ttl: int64, fileName: string, host: string, port: int32,
                           registry: Registry, disk: Disk, now: int64, m: string)
    ensures var r := Query(p, msgId, ttl, fileName, host, port, registry, disk, now);
      HitsFor(r.calls, m) <= (if m == msgId && msgId !in p.seenMessages then 1 else 0)
  {
    var r := Query(p, msgId, ttl, fileName, host, port, registry, disk, now);
    if msgId in p.seenMessages || Address(host, port) !in registry {
      assert r.calls == [];
    } else {
      var sender := registry[Address(host, port)];
      var forwards := if Wrap64(ttl - 1) > 0
        then Forward(p.neighbors, sender, msgId, ttl, fileName, p.localAddress, p.localPort)
        else [];
      var hit := if fileName in disk
        then [HitQueryCall(sender, msgId, Const.TTL, fileName, NewDefault(SelfAddress(p), fileName, disk[fileName], now))]
        else [];
      assert r.calls == forwards + hit;
      HitsForAppend(forwards, hit, m);
      HitsForNone(forwards, m);
      if m != msgId {
        HitsForNone(hit, m);
      }
    }
  }

  /** A query as it arrives at a peer, with the registry and the shared
      directory as they stand at that moment. */
  datatype Arrival = Arrival(msgId: string, ttl: int64, fileName: string, host: string, port: int32, now: int64,
                             registry: Registry, disk: Disk)

  function RunQueries(p: Peer, qs: seq<Arrival>): Step
    decreases |qs|
  {
    if |qs| == 0 then Step(p, [])
    else
      var q := qs[0];
      var first := Query(p, q.msgId, q.ttl, q.fileName, q.host, q.port, q.registry, q.disk, q.now);
      var rest := RunQueries(first.peer, qs[1..]);
      Step(rest.peer, first.calls + rest.calls)
  }

  /** Loop safety: however many copies of a message id arrive, by however
      many paths, the peer answers it at most once, and not at all when it
      had seen the id before. */
  lemma {:induction false} QueryAnsweredAtMostOnce(p: Peer, qs: seq<Arrival>, m: string)
    ensures HitsFor(RunQueries(p, qs).calls, m) <= (if m in p.seenMessages then 0 else 1)
    ensures p.seenMessages.Keys <= RunQueries(p, qs).peer.seenMessages.Keys
    decreases |qs|
  {
    if |qs| > 0 {
      var q := qs[0];
      var first := Query(p, q.msgId, q.ttl, q.fileName, q.host, q.port, q.registry, q.disk, q.now);
      QueryHitsAtMostOne(p, q.msgId, q.ttl, q.fileName, q.host, q.port, q.registry, q.disk, q.now, m);
      QueryAnsweredAtMostOnce(first.peer, qs[1..], m);
      var rest := RunQueries(first.peer, qs[1..]);
      HitsForAppend(first.calls, rest.calls, m);
      if HitsFor(first.calls, m) == 1 {
        assert m in first.peer.seenMessages;
      }
    }
  }
}

=== FILE: peer_tester.dfy ===
/**
 * The measurement side of the experiment harness (PeerTester.java): the
 * score that counts inconsistent search results, the memoised list of test
 * file names, and the bulk update of a peer's local files.
 */
module PeerTester {
  import opened Basics
  import opened FileLocations
  import Peers

  // ---------------------------------------------------------------------
  // Ordering results by timestamp (List.sort is a stable sort)

  predicate SortedByTimestamp(rs: seq<FileLocation>) {
    forall i, j :: 0 <= i < j < |rs| ==> rs[i].timeStamp <= rs[j].timeStamp
  }

  /** Places `x` after every element of `s` whose timestamp is not later. */
  function Insert(s: seq<FileLocation>, x: FileLocation): (r: seq<FileLocation>)
    requires SortedByTimestamp(s)
    ensures SortedByTimestamp(r)
    ensures forall y :: y in r <==> y in s || y == x
    ensures |r| == |s| + 1
    decreases |s|
  {
    if |s| == 0 then [x]
    else if x.timeStamp < s[|s| - 1].timeStamp then
      var front := s[..|s| - 1];
      var ins := Insert(front, x);
      InsertBeforeLast(s, x, ins);
      ins + [s[|s| - 1]]
    else
      AppendLater(s, x);
      s + [x]
  }

  /** The inductive step of `Insert` when `x` goes before the last element. */
  lemma InsertBeforeLast(s: seq<FileLocation>, x: FileLocation, ins: seq<FileLocation>)
    requires |s| > 0 && SortedByTimestamp(s) && x.timeStamp < s[|s| - 1].timeStamp
    requires SortedByTimestamp(ins)
    requires forall y :: y in ins ==> y in s[..|s| - 1] || y == x
    ensures SortedByTimestamp(ins + [s[|s| - 1]])
    ensures forall y :: y in ins + [s[|s| - 1]] ==> y in s || y == x
  {
    var front := s[..|s| - 1];
    var last := s[|s| - 1];
    assert s == front + [last];
    var r := ins + [last];
    forall i, j | 0 <= i < j < |r| ensures r[i].timeStamp <= r[j].timeStamp {
      if j == |r| - 1 {
        assert r[i] in ins;
        if r[i] != x {
          var k :| 0 <= k < |front| && front[k] == r[i];
          assert s[k] == r[i];
        }
      } else {
        assert r[i] == ins[i] && r[j] == ins[j];
      }
    }
  }

  lemma AppendLater(s: seq<FileLocation>, x: FileLocation)
    requires SortedByTimestamp(s) && (|s| == 0 || s[|s| - 1].timeStamp <= x.timeStamp)
    ensures SortedByTimestamp(s + [x])
  {
    var r := s + [x];
    forall i, j | 0 <= i < j < |r| ensures r[i].timeStamp <= r[j].timeStamp {
      if j == |r| - 1 && i < |s| - 1 {
        assert s[i].timeStamp <= s[|s| - 1].timeStamp;
      }
    }
  }

  /** The results in ascending timestamp order, equal timestamps kept in
      their original order. */
  function SortByTimestamp(rs: seq<FileLocation>): (r: seq<FileLocation>)
    ensures SortedByTimestamp(r)
    ensures |r| == |rs|
    ensures forall y :: y in r <==> y in rs
    decreases |rs|
  {
    if |rs| == 0 then [] else Insert(SortByTimestamp(rs[..|rs| - 1]), rs[|rs| - 1])
  }

  /** Inserting adds exactly one occurrence of `x` and loses nothing. */
  lemma {:induction false} InsertPermutes(s: seq<FileLocation>, x: FileLocation)
    requires SortedByTimestamp(s)
    ensures multiset(Insert(s, x)) == multiset(s) + multiset{x}
    decreases |s|
  {
    if |s| > 0 && x.timeStamp < s[|s| - 1].timeStamp {
      var front := s[..|s| - 1];
      var last := s[|s| - 1];
      InsertPermutes(front, x);
      assert Insert(s, x) == Insert(front, x) + [last];
      SplitLast(s);
    }
  }

  /** The sorted list is a permutation of the results. */
  lemma {:induction false} SortIsPermutation(rs: seq<FileLocation>)
    ensures multiset(SortByTimestamp(rs)) == multiset(rs)
    decreases |rs|
  {
    if |rs| > 0 {
      var front := rs[..|rs| - 1];
      SortIsPermutation(front);
      InsertPermutes(SortByTimestamp(front), rs[|rs| - 1]);
      SplitLast(rs);
    }
  }

  /** The results carrying timestamp `t`, in order. */
  function WithTimestamp(rs: seq<FileLocation>, t: int64): seq<FileLocation>
    decreases |rs|
  {
    if |rs| == 0 then []
    else (if rs[0].timeStamp == t then [rs[0]] else []) + WithTimestamp(rs[1..], t)
  }

  lemma {:induction false} WithTimestampAppend(a: seq<FileLocation>, b: seq<FileLocation>, t: int64)
    ensures WithTimestamp(a + b, t) == WithTimestamp(a, t) + WithTimestamp(b, t)
    decreases |a|
  {
    if |a| == 0 {
      assert a + b == b;
    } else {
      var ab := a + b;
      assert ab[0] == a[0];
      assert ab[1..] == a[1..] + b;
      WithTimestampAppend(a[1..], b, t);
      var head := if a[0].timeStamp == t then [a[0]] else [];
      assert WithTimestamp(ab, t) == head + WithTimestamp(a[1..] + b, t);
      assert WithTimestamp(a, t) == head + WithTimestamp(a[1..], t);
    }
  }

  lemma WithTimestampSingle(y: FileLocation, t: int64)
    ensures WithTimestamp([y], t) == if y.timeStamp == t then [y] else []
  {
    assert [y][1..] == [];
  }

  lemma {:induction false} InsertIsStable(s: seq<FileLocation>, x: FileLocation, t: int64)
    requires SortedByTimestamp(s)
    ensures WithTimestamp(Insert(s, x), t) == WithTimestamp(s + [x], t)
    decreases |s|
  {
    if |s| > 0 && x.timeStamp < s[|s| - 1].timeStamp {
      var front := s[..|s| - 1];
      var last := s[|s| - 1];
      var ins := Insert(front, x);
      assert Insert(s, x) == ins + [last];
      assert s == front + [last];
      InsertIsStable(front, x, t);
      WithTimestampAppend(ins, [last], t);
      WithTimestampAppend(front, [x], t);
      WithTimestampAppend(front, [last], t);
      WithTimestampAppend(s, [x], t);
      WithTimestampSingle(x, t);
      WithTimestampSingle(last, t);
      var wf, wx, wl := WithTimestamp(front, t), WithTimestamp([x], t), WithTimestamp([last], t);
      assert WithTimestamp(Insert(s, x), t) == wf + wx + wl;
      assert WithTimestamp(s + [x], t) == wf + wl + wx;
      assert wx == [] || wl == [];
    } else {
      assert Insert(s, x) == s + [x];
    }
  }

  /** The sort is stable: for every timestamp, the results carrying it
      appear in the same relative order before and after sorting. Together
      with sortedness this fixes the sorted order completely, which matters
      because the score depends on the order of equal timestamps. */
  lemma {:induction false} SortIsStable(rs: seq<FileLocation>, t: int64)
    ensures WithTimestamp(SortByTimestamp(rs), t) == WithTimestamp(rs, t)
    decreases |rs|
  {
    if |rs| > 0 {
      var front := rs[..|rs| - 1];
      var x := rs[|rs| - 1];
      SplitLast(rs);
      var sf := SortByTimestamp(front);
      SortIsStable(front, t);
      InsertIsStable(sf, x, t);
      WithTimestampAppend(sf, [x], t);
      WithTimestampAppend(front, [x], t);
      calc {
        WithTimestamp(SortByTimestamp(rs), t);
        WithTimestamp(Insert(sf, x), t);
        WithTimestamp(sf + [x], t);
        WithTimestamp(sf, t) + WithTimestamp([x], t);
        WithTimestamp(front, t) + WithTimestamp([x], t);
        WithTimestamp(front + [x], t);
        WithTimestamp(rs, t);
      }
    }
  }

  lemma SplitLast(s: seq<FileLocation>)
    requires |s| > 0
    ensures s == s[..|s| - 1] + [s[|s| - 1]]
  {
  }

  // ---------------------------------------------------------------------
  // Scoring (lines 270-299)

  /** The loop's accumulators: the inconsistency count and the highest
      version seen so far per file name. */
  datatype Tally = Tally(invalidCount: nat, highestVersions: map<string, int32>)

  function Max(a: int32, b: int32): int32 {
    if a >= b then a else b
  }

  /** One pass of the loop body: the first result for a name only records
      its version; a later one is counted when its version is below the
      highest so far, and the highest is updated. */
  function ScoreStep(t: Tally, r: FileLocation): Tally {
    if r.fileName !in t.highestVersions then
      Tally(t.invalidCount, t.highestVersions[r.fileName := r.version])
    else
      var highest := t.highestVersions[r.fileName];
      var count := if r.version < highest then t.invalidCount + 1 else t.invalidCount;
      Tally(count, t.highestVersions[r.fileName := Max(r.version, highest)])
  }

  /** The accumulators after the loop has consumed `rs`. */
  function Score(rs: seq<FileLocation>): Tally
    decreases |rs|
  {
    if |rs| == 0 then Tally(0, map[]) else ScoreStep(Score(rs[..|rs| - 1]), rs[|rs| - 1])
  }

  /** Some earlier result for the same file carries a higher version. */
  predicate Inconsistent(rs: seq<FileLocation>, i: int)
    requires 0 <= i < |rs|
  {
    exists j :: 0 <= j < i && rs[j].fileName == rs[i].fileName && rs[j].version > rs[i].version
  }

  /** The number of inconsistent results, counted directly. */
  function CountInconsistent(rs: seq<FileLocation>): nat
    decreases |rs|
  {
    if |rs| == 0 then 0
    else CountInconsistent(rs[..|rs| - 1]) + (if Inconsistent(rs, |rs| - 1) then 1 else 0)
  }

  predicate Seen(rs: seq<FileLocation>, name: string) {
    exists j :: 0 <= j < |rs| && rs[j].fileName == name
  }

  /** `v` is the largest version among the results for `name`. */
  predicate IsHighest(rs: seq<FileLocation>, name: string, v: int32) {
    && (exists j :: 0 <= j < |rs| && rs[j].fileName == name && rs[j].version == v)
    && (forall j :: 0 <= j < |rs| && rs[j].fileName == name ==> rs[j].version <= v)
  }

  /** After every step the stored maximum of each name is the maximum over
      all results for that name so far, and only names seen so far have one. */
  lemma {:induction false} ScoreTracksHighest(rs: seq<FileLocation>)
    ensures forall name :: name in Score(rs).highestVersions <==> Seen(rs, name)
    ensures forall name :: name in Score(rs).highestVersions ==> IsHighest(rs, name, Score(rs).highestVersions[name])
    decreases |rs|
  {
    if |rs| > 0 {
      var front := rs[..|rs| - 1];
      var x := rs[|rs| - 1];
      var h := Score(front).highestVersions;
      var h' := Score(rs).highestVersions;
      ScoreTracksHighest(front);
      assert h' == ScoreStep(Score(front), x).highestVersions;
      forall name ensures name in h' <==> Seen(rs, name) {
        SeenExtends(rs, name);
      }
      forall name | name in h' ensures IsHighest(rs, name, h'[name]) {
        HighestExtends(rs, name, h, h');
      }
    }
  }

  lemma SeenExtends(rs: seq<FileLocation>, name: string)
    requires |rs| > 0
    ensures Seen(rs, name) <==> Seen(rs[..|rs| - 1], name) || rs[|rs| - 1].fileName == name
  {
    var front := rs[..|rs| - 1];
    if Seen(rs, name) {
      var j :| 0 <= j < |rs| && rs[j].fileName == name;
      if j < |front| {
        assert front[j].fileName == name;
      }
    }
    if Seen(front, name) {
      var j :| 0 <= j < |front| && front[j].fileName == name;
      assert rs[j].fileName == name;
    }
  }

  /** One step of the loop keeps the stored maximum of `name` exact. */
  lemma HighestExtends(rs: seq<FileLocation>, name: string, h: map<string, int32>, h': map<string, int32>)
    requires |rs| > 0
    requires h == Score(rs[..|rs| - 1]).highestVersions
    requires h' == ScoreStep(Score(rs[..|rs| - 1]), rs[|rs| - 1]).highestVersions
    requires forall n :: n in h <==> Seen(rs[..|rs| - 1], n)
    requires forall n :: n in h ==> IsHighest(rs[..|rs| - 1], n, h[n])
    requires name in h'
    ensures IsHighest(rs, name, h'[name])
  {
    var front := rs[..|rs| - 1];
    var x := rs[|rs| - 1];
    if name == x.fileName && name !in h {
      forall j | 0 <= j < |rs| - 1 ensures rs[j].fileName != name {
        assert front[j] == rs[j];
      }
    } else {
      assert IsHighest(front, name, h[name]);
      var k :| 0 <= k < |front| && front[k].fileName == name && front[k].version == h[name];
      assert rs[k] == front[k];
      forall j | 0 <= j < |rs| - 1 && rs[j].fileName == name ensures rs[j].version <= h[name] {
        assert front[j] == rs[j];
      }
    }
  }

  /** A result is counted exactly when it is inconsistent. */
  lemma {:induction false} ScoreCountsInconsistent(rs: seq<FileLocation>)
    ensures Score(rs).invalidCount == CountInconsistent(rs)
    decreases |rs|
  {
    if |rs| > 0 {
      var front := rs[..|rs| - 1];
      ScoreCountsInconsistent(front);
      StepCountsIffInconsistent(rs, |rs| - 1);
      assert rs[..|rs| - 1] == front;
    }
  }

  /** Step `i` adds one to the count iff result `i` is inconsistent, which
      is the same as its version being below the stored maximum of its
      name; the first result of a name is never counted. */
  lemma StepCountsIffInconsistent(rs: seq<FileLocation>, i: nat)
    requires i < |rs|
    ensures var before := Score(rs[..i]);
      Score(rs[..i + 1]).invalidCount == before.invalidCount + (if Inconsistent(rs, i) then 1 else 0)
    ensures var before := Score(rs[..i]);
      Inconsistent(rs, i) <==> rs[i].fileName in before.highestVersions && rs[i].version < before.highestVersions[rs[i].fileName]
    ensures !Seen(rs[..i], rs[i].fileName) ==> Score(rs[..i + 1]).invalidCount == Score(rs[..i]).invalidCount
  {
    var front := rs[..i];
    var x := rs[i];
    assert rs[..i + 1][..i] == front;
    ScoreTracksHighest(front);
    assert forall j :: 0 <= j < i ==> front[j] == rs[j];
    if Inconsistent(rs, i) {
      var j :| 0 <= j < i && rs[j].fileName == x.fileName && rs[j].version > x.version;
      assert front[j].fileName == x.fileName;
    }
    if x.fileName in Score(front).highestVersions && x.version < Score(front).highestVersions[x.fileName] {
      var j :| 0 <= j < |front| && front[j].fileName == x.fileName && front[j].version == Score(front).highestVersions[x.fileName];
      assert rs[j].fileName == x.fileName && rs[j].version > x.version;
    }
  }

  /** The stored maximum of a name never goes down as the loop proceeds. */
  lemma {:induction false} HighestNonDecreasing(rs: seq<FileLocation>, i: nat, j: nat, name: string)
    requires i <= j <= |rs|
    requires name in Score(rs[..i]).highestVersions
    ensures name in Score(rs[..j]).highestVersions
    ensures Score(rs[..i]).highestVersions[name] <= Score(rs[..j]).highestVersions[name]
    decreases j - i
  {
    if i < j {
      var h := Score(rs[..i]).highestVersions;
      assert rs[..i + 1][..i] == rs[..i];
      assert name in Score(rs[..i + 1]).highestVersions;
      assert h[name] <= Score(rs[..i + 1]).highestVersions[name];
      HighestNonDecreasing(rs, i + 1, j, name);
    }
  }

  lemma {:induction false} CountAtMostLength(rs: seq<FileLocation>)
    ensures CountInconsistent(rs) <= |rs|
    decreases |rs|
  {
    if |rs| > 0 {
      CountAtMostLength(rs[..|rs| - 1]);
    }
  }

  /** Per file name, versions never go down along the sequence. */
  predicate VersionsNonDecreasing(rs: seq<FileLocation>) {
    forall i, j :: 0 <= i < j < |rs| && rs[i].fileName == rs[j].fileName ==> rs[i].version <= rs[j].version
  }

  /** When no file's version ever goes down, nothing is counted. */
  lemma {:induction false} NonDecreasingScoresZero(rs: seq<FileLocation>)
    requires VersionsNonDecreasing(rs)
    ensures Score(rs).invalidCount == 0
    decreases |rs|
  {
    ScoreCountsInconsistent(rs);
    if |rs| > 0 {
      var front := rs[..|rs| - 1];
      assert VersionsNonDecreasing(front) by {
        forall i, j | 0 <= i < j < |front| && front[i].fileName == front[j].fileName
          ensures front[i].version <= front[j].version
        {
          assert front[i] == rs[i] && front[j] == rs[j];
        }
      }
      NonDecreasingScoresZero(front);
      ScoreCountsInconsistent(front);
    }
  }

  /** `testInvalidQueries`, from the point where the queries are done:
      sort the results by timestamp (in place, hence `sorted` is returned
      too), then walk them keeping the highest version per name and count
      the results that fall below it. */
  method TestInvalidQueries(results: seq<FileLocation>) returns (invalidCount: nat, sorted: seq<FileLocation>)
    ensures invalidCount <= |results|
    ensures VersionsNonDecreasing(sorted) ==> invalidCount == 0
    ensures SortedByTimestamp(sorted)
    ensures multiset(sorted) == multiset(results)
    ensures forall t :: WithTimestamp(sorted, t) == WithTimestamp(results, t)
    ensures invalidCount == CountInconsistent(sorted)
  {
    sorted := SortByTimestamp(results);
    invalidCount := 0;
    var highestVersions: map<string, int32> := map[];
    var i := 0;
    while i < |sorted|
      invariant 0 <= i <= |sorted|
      invariant Tally(invalidCount, highestVersions) == Score(sorted[..i])
    {
      var result := sorted[i];
      assert sorted[..i + 1][..i] == sorted[..i];
      assert Score(sorted[..i + 1]) == ScoreStep(Score(sorted[..i]), result);
      if result.fileName !in highestVersions {
        highestVersions := highestVersions[result.fileName := result.version];
      } else {
        var highestVersion := highestVersions[result.fileName];
        if result.version < highestVersion {
          invalidCount := invalidCount + 1;
        }
        highestVersion := Max(result.version, highestVersion);
        highestVersions := highestVersions[result.fileName := highestVersion];
      }
      i := i + 1;
    }
    assert sorted[..|sorted|] == sorted;
    forall t {
      SortIsStable(results, t);
    }
    SortIsPermutation(results);
    ScoreCountsInconsistent(sorted);
    CountAtMostLength(sorted);
    if VersionsNonDecreasing(sorted) {
      NonDecreasingScoresZero(sorted);
    }
  }

  // ---------------------------------------------------------------------
  // getFileNames (lines 112-124)

  /** The tester's state that `getFileNames` reads and writes; `fileNames`
      is `None` until the first call. */
  datatype Tester = Tester(peerName: string, numberOfFiles: int32, fileNames: Option<seq<string>>)

  function NewTester(peerName: string, numberOfFiles: int32): Tester {
    Tester(peerName, numberOfFiles, None)
  }

  /** `peerName + "_file" + i`. */
  function FileName(peerName: string, i: int): string {
    peerName + "_file" + IntToDecimal(i)
  }

  datatype Listing = Listing(tester: Tester, names: seq<string>)

  /** Returns the memoised list if there is one; otherwise builds the
      `numberOfFiles` names, stores and returns them. A negative count makes
      `new ArrayList(n)` throw (`None`), before anything is stored. */
  function GetFileNames(t: Tester): (r: Option<Listing>)
    ensures t.fileNames.Some? ==> r == Some(Listing(t, t.fileNames.value))
    ensures t.fileNames.None? ==> (r.None? <==> t.numberOfFiles < 0)
    ensures t.fileNames.None? && r.Some? ==>
      && |r.value.names| == t.numberOfFiles
      && (forall i :: 0 <= i < |r.value.names| ==> r.value.names[i] == FileName(t.peerName, i))
      && r.value.tester == t.(fileNames := Some(r.value.names))
  {
    if t.fileNames.Some? then Some(Listing(t, t.fileNames.value))
    else if t.numberOfFiles < 0 then None
    else
      var names := seq(t.numberOfFiles, i requires 0 <= i < t.numberOfFiles => FileName(t.peerName, i));
      Some(Listing(t.(fileNames := Some(names)), names))
  }

  /** Calling again returns the same list and changes nothing. */
  lemma GetFileNamesMemoised(t: Tester)
    requires GetFileNames(t).Some?
    ensures GetFileNames(GetFileNames(t).value.tester) == GetFileNames(t)
  {
  }

  /** The generated names are pairwise distinct. */
  lemma FileNamesDistinct(t: Tester, i: nat, j: nat)
    requires t.fileNames.None? && GetFileNames(t).Some?
    requires i < j < |GetFileNames(t).value.names|
    ensures GetFileNames(t).value.names[i] != GetFileNames(t).value.names[j]
  {
    IntToDecimalInjective(i, j);
    PrefixCancels(t.peerName + "_file", IntToDecimal(i), IntToDecimal(j));
  }

  // ---------------------------------------------------------------------
  // updateFiles (lines 306-314)

  /** Touches every local file once, all at clock reading `now`. */
  function UpdateFiles(p: Peers.Peer, now: int64): (r: Peers.Peer)
    ensures r == p.(localFiles := r.localFiles)
    ensures |r.localFiles| == |p.localFiles|
    ensures forall i :: 0 <= i < |p.localFiles| ==> r.localFiles[i] == Touch(p.localFiles[i], now)
  {
    p.(localFiles := seq(|p.localFiles|, i requires 0 <= i < |p.localFiles| => Touch(p.localFiles[i], now)))
  }

  /** Every local file's version goes up by exactly one (below the `int`
      limit), and each file keeps its identity and consistency flags. */
  lemma UpdateFilesBumpsEachOnce(p: Peers.Peer, now: int64, i: nat)
    requires i < |p.localFiles| && p.localFiles[i].version < Int32Max
    ensures var f := p.localFiles[i];
      var g := UpdateFiles(p, now).localFiles[i];
      g.version == f.version + 1 && Equals(g, f) && g.valid == f.valid && g.ttr == f.ttr &&
      g.expired == f.expired && g.fileSize == f.fileSize
  {
  }
}
